=== FILE: README.md ===
# Mandarin trainer: lesson flow, step routes and dashboard

A Dafny model of the logic in the Mandarin lesson trainer. A learner describes a situation and what they want to say (step 1). The AI summarizes their intent and the learner confirms it or types a clarification (step 2). The AI then returns a corrected Mandarin sentence with notes and two alternatives, and the learner rates the lesson with one to five stars (step 3).

The model has three parts, each with pure functions only:

- **The client session** (`LessonFlow`). This is a three-step state machine over the twelve-field lesson record plus a little UI state.
  - Each handler is a transition function.
  - The awaited server reply is a parameter (`Outcome`).
  - `Dispatch` applies a user action only when its control is on screen and enabled.
  - An invariant `Inv` holds in every reachable state.
- **The three lesson routes** (`Step1Route`, `ClarifyRoute`, `Step2Route`). Each is a decision function from a request to a reply with an HTTP status.
  - The environment's API key, the AI's answer, the database's success and `JSON.parse` are parameters.
  - Each route also returns the ordered list of calls it made (`Effect`). This makes "rejected before the AI is called" and "no step-3 update" statements about the handler's result.
  - Fence stripping and the merged clarify context are modelled as `seq<char>` functions over the white-space set shared by `String.prototype.trim` and the regular-expression class `\s` (`Js`).
- **The dashboard figures** (`Dashboard`): the average rating over rated lessons, the rated count, the streak card, the title truncation, the status badge and the "View All Lessons" threshold.

`Wiring` connects the client and the routes:

- the request bodies the client builds;
- how it reads a reply;
- that, after a successful step 2, the client and whichever row the route updated hold the same corrections, summary and decision.

`LessonStore` models one user's stored lessons. It shows which row that is: the save route inserts the lesson only when it is rated, so the step-2 route's "newest lesson" is the previous, finished one (see "## Findings").

What the code does where a reader might expect otherwise:

- Step 2 always goes straight to step 3, whether the learner confirms or clarifies. The client never calls the clarify route, so the learner cannot have the summary regenerated from a clarification and stay in step 2. Nothing in the client state or the lesson row records whether a clarification was applied; only the confirmation flag and the clarification text are kept (`LessonFlow.Step2AlwaysAdvances`).
- No action moves back to an earlier step except starting a new lesson (`LessonFlow.NoBackTransition`).
- A rating is not write-once. The star buttons are disabled only while loading, and a second successful click replaces the first (`LessonFlow.RatingCanBeReplaced`).
- The step-2 route does not check the API key. It also does not check that the parsed answer has a `corrected` field.

## Model

| member | source | states |
|---|---|---|
| Js.Trim | app/api/lesson/step1/route.ts:53-59 | The trimmed text is no longer than the input and starts and ends with non-white space. It is empty exactly when the input is all white space. |
| Js.TrimSplits | app/api/lesson/step1/route.ts:59 | Any text is white space, then its trimmed value, then white space. |
| Js.TrimOfTrimmed | app/api/lesson/step1/route.ts:59 | Trimming a text with no white space at either end returns it unchanged. |
| Js.TrimIdempotent | app/api/lesson/step1/route.ts:59 | Trimming twice is the same as trimming once. |
| Js.TrimIgnoresPadding | app/api/lesson/step1/route.ts:59 | White space added on either side does not change the trimmed value. |
| Js.OrEmpty | components/lesson-flow.tsx:140 | `x \|\| ""` is the string when it is present and non-empty, and "" otherwise. |
| Js.NonBlankIsNonEmpty | components/lesson-flow.tsx:263 | A text the client accepts as non-blank is non-empty. |
| Lesson.WithCorrections | components/lesson-flow.tsx:137-147 | The six step-3 fields read back as the given corrections. Every step-1 field, step-2 field and the rating are kept. |
| Lesson.Step3Fields | app/api/lesson/step2/route.ts:92-99 | The step-3 update writes exactly the six step-3 columns, each with a string. |
| Lesson.Apply | app/api/lesson/step2/route.ts:27-32 | Applied to whichever row the update selects: every column present in the update with a value of the right type (a boolean for the decision, text otherwise) afterwards holds that value. Every other updatable column keeps its value. The step-1 texts and the rating are never touched. A step-3-only update keeps the step-2 fields, and an update without step-3 columns keeps the step-3 fields. |
| Lesson.Step3FieldsRoundTrip | app/api/lesson/step2/route.ts:92-108 | Writing a corrections payload to any row and reading the step-3 fields back returns the payload. The result equals the client's own `WithCorrections`. |
| LessonFlow.Step1Submit | components/lesson-flow.tsx:53-99 | With a blank context or intent nothing changes, whatever the reply. With both non-blank the loading flag ends false. A failed request then keeps the record and the step. An answered one moves to step 2 with `step2Clarification` set to the reply, and nothing else in the record changes. |
| LessonFlow.Step2Submit | components/lesson-flow.tsx:101-159 | A failure changes only the loading flag. On success the step is 3, and the decision, `clarification \|\| ""` and the six step-3 fields come from the reply. The box is closed and emptied. The step-1 fields, the AI summary and the rating are kept. |
| LessonFlow.Rate | components/lesson-flow.tsx:161-191 | On a successful save both the highlighted star and the record's rating are the clicked value. On a failed save the highlight is cleared and the previous rating is kept. Nothing else in the record changes. |
| LessonFlow.Reset | components/lesson-flow.tsx:193-212 | Back to step 1 with the empty record, the box closed and emptied and no star highlighted. |
| LessonFlow.ResetRestoresInitial | components/lesson-flow.tsx:38-51 | Reset is idempotent. From any state that is not loading it gives exactly the initial state, and it depends on nothing but the loading flag. |
| LessonFlow.OpenClarification | components/lesson-flow.tsx:294 | "No, let me clarify" opens the box and changes nothing else: not the record, the step, the typed clarification, the highlighted star or the loading flag. |
| LessonFlow.CancelClarification | components/lesson-flow.tsx:322-326 | "Cancel" closes and empties the box without touching the record, the step or the rating. |
| LessonFlow.Dispatch | components/lesson-flow.tsx:245-315 | An action whose control is hidden or disabled leaves the state unchanged. An enabled text box writes its text to its own field and no other step-1 field or record field. On an answer, "Yes, that's correct" records "" as the clarification and "Submit Clarification" records the box's text. |
| LessonFlow.ControlsOnScreen | components/lesson-flow.tsx:229-398 | Each control is enabled exactly when the source draws it and does not disable it. Step-1 text boxes: on step 1. "Continue": on step 1, not loading, non-blank context and intent. "Yes, that's correct" and "No, let me clarify": on step 2 with the box closed, not loading. The clarification box: on step 2 with the box open, even while loading. "Submit Clarification": the same but not loading and with non-blank text. "Cancel": the same but not loading. A star: on step 3 with a value from 1 to 5, not loading. "New Lesson": always. No button but "New Lesson" is enabled while loading. |
| LessonFlow.RatingChoicesAreOneToFive | components/lesson-flow.tsx:375 | The star values offered are exactly 1 to 5. |
| LessonFlow.InitialSatisfiesInv | components/lesson-flow.tsx:33-51 | The initial state satisfies the session invariant. |
| LessonFlow.Step1KeepsInv | components/lesson-flow.tsx:88-92 | An enabled "Continue" keeps the invariant, so step 2 is entered only with a non-blank context and intent and no decision recorded. |
| LessonFlow.Step2KeepsInv | components/lesson-flow.tsx:137-152 | Either step-2 submission keeps the invariant. |
| LessonFlow.RateKeepsInv | components/lesson-flow.tsx:375-381 | An enabled star click keeps every stored or highlighted rating within 1 to 5. |
| LessonFlow.DispatchPreservesInv | components/lesson-flow.tsx:53-212 | Every action, with any server replies, keeps the invariant. |
| LessonFlow.RunPreservesInv | components/lesson-flow.tsx:53-212 | Any sequence of actions keeps the invariant. |
| LessonFlow.ReachableSatisfiesInv | components/lesson-flow.tsx:33-51 | Every state reachable from the initial one satisfies the invariant. |
| LessonFlow.NoBackTransition | components/lesson-flow.tsx:88-152 | Any action other than "New Lesson" keeps the step or advances it by one. |
| LessonFlow.RunNeverGoesBack | components/lesson-flow.tsx:88-152 | Over a session without "New Lesson" the step never decreases. |
| LessonFlow.Step2AlwaysAdvances | components/lesson-flow.tsx:137-150 | Confirming and submitting a clarification both reach step 3 when the server answers. The recorded decision is whether the learner confirmed, and the recorded clarification is "" on confirming and the box's text otherwise. |
| Wiring.TypedTextIsSent | components/lesson-flow.tsx:245-315 | Editing the context or intent box on step 1 changes exactly that field of the step-1 request. Non-blank text typed into the open clarification box enables "Submit Clarification", becomes the intent the step-2 route generates for, and is the clarification the client records. |
| LessonFlow.RatingCanBeReplaced | components/lesson-flow.tsx:161-191 | On the result screen, two star clicks that both save leave the second rating: the stars stay enabled after a rating. |
| Step1Route.Post | app/api/lesson/step1/route.ts:6-71 | A missing or empty field gives 400, exactly when a field is missing. A missing key gives 500. Both happen before the AI is called, and the field check comes first. An AI exception gives 500. An empty or white-space answer gives 500. Success comes exactly for a valid request with a key and a non-blank answer, and returns the trimmed answer, which is non-empty. |
| Step1Route.RejectionIgnoresGeneration | app/api/lesson/step1/route.ts:11-25 | A request rejected by validation or by the key check gets the same reply whatever the AI would say, and no AI call is made. |
| ClarifyRoute.EnhancedContext | app/api/lesson/clarify/route.ts:28 | The merged context starts with the context, then the fixed separator, and ends with the clarification. |
| ClarifyRoute.EnhancedContextRoundTrip | app/api/lesson/clarify/route.ts:28 | The clarification can be read back from the merged context given the original context. |
| ClarifyRoute.EnhancedContextInjective | app/api/lesson/clarify/route.ts:28 | Different clarifications never give the same merged context. |
| ClarifyRoute.Post | app/api/lesson/clarify/route.ts:6-74 | Like step 1, but the clarification field is also required. On success it returns the trimmed answer together with a merged context from which the request's clarification reads back. |
| Step2Route.Step2Fields | app/api/lesson/step2/route.ts:18-25 | The step-2 update always carries the original summary and the decision. It carries the learner's clarification exactly when they declined and the clarification is non-empty. |
| Step2Route.FinalIntent | app/api/lesson/step2/route.ts:39 | The intent is the learner's input when they confirmed and their clarification otherwise. |
| Step2Route.DropClosingFence | app/api/lesson/step2/route.ts:77 | A trailing fence goes, with only the white space before it, and the result does not end in white space. Text without a trailing fence is unchanged. |
| Step2Route.StripFences | app/api/lesson/step2/route.ts:75-80 | The result is never longer than the trimmed answer and has no white space at either end. Text not starting with a fence is just trimmed. |
| Step2Route.FencePieces | app/api/lesson/step2/route.ts:75-80 | A fenced answer is the opening fence ("```json" takes precedence over "```"), white space, the result, and then nothing or white space plus the closing fence. The tail is empty exactly when the text after the opening fence does not end in a closing fence. |
| Step2Route.FenceRoundTrip | app/api/lesson/step2/route.ts:75-80 | A payload wrapped in a "```json" or bare fence on lines of its own comes out exactly. |
| Step2Route.UnfencedIsOnlyTrimmed | app/api/lesson/step2/route.ts:75-80 | An unfenced payload with white-space padding comes out as the payload. |
| Step2Route.FencedAnswerIsStored | app/api/lesson/step2/route.ts:75-108 | A "```json"-fenced answer whose payload parses is decoded to that parse, returned as the reply, and written as the step-3 update. |
| Step2Route.Decode | app/api/lesson/step2/route.ts:67-90 | An AI exception, an unparsable fence-stripped answer, or the answer `JSON.parse` produced for the fence-stripped text. |
| Step2Route.Correct | app/api/lesson/step2/route.ts:67-116 | After the step-2 update: the corrections call, then an error when it threw or did not parse, otherwise the step-3 update, and success exactly when that update succeeded. |
| Step2Route.Post | app/api/lesson/step2/route.ts:6-121 | A missing field gives 400 with no calls. Otherwise the step-2 update comes first, and its failure gives 500 before any AI call. Then corrections are requested for the resolved intent. A parse failure gives 500 with no step-3 update. A failed step-3 update gives 500. Success comes exactly when both updates succeed, and returns the parsed answer. |
| Dashboard.Ratings | components/dashboard-content.tsx:38 | The ratings of the rated lessons: every truthy rating appears, every value comes from a lesson, none is zero, and there are no more of them than lessons. |
| Dashboard.RatingsCount | components/dashboard-content.tsx:38-40 | The filter keeps one entry per rated lesson, and each rating value as many times as lessons carry it. |
| Dashboard.AverageRating | components/dashboard-content.tsx:37-41 | The average is 0 when nothing is rated. Otherwise it is the mean of the ratings, and it lies between the smallest and the largest of them. |
| Dashboard.MeanBetweenMinMax | components/dashboard-content.tsx:40 | The mean of a non-empty list lies between its minimum and maximum. |
| Dashboard.SumBetween | components/dashboard-content.tsx:40 | A sum of values between two bounds lies between the count times each bound. |
| Dashboard.AverageWithinStars | components/dashboard-content.tsx:37-41 | With star ratings only, the average is between 0 and 5. |
| Dashboard.Title | components/dashboard-content.tsx:139-140 | A context of at most 60 characters is shown unchanged. A longer one shows as its first 60 characters plus "...", so the title is never longer than 63. |
| Dashboard.Streak | components/dashboard-content.tsx:97 | The streak is the lesson count capped at 7, and 0 for no lessons. |
| Dashboard.Status | components/dashboard-content.tsx:155 | A lesson is "Completed" exactly when its corrected sentence is non-empty. |
| Dashboard.StatsOf | components/dashboard-content.tsx:73-165 | The rated count is the number of lessons with a truthy rating, at most the lesson count. The streak is at most 7 and at most the count. "View All Lessons" shows exactly when there are at least 10 lessons. |
| Wiring.Step1RequestOf | components/lesson-flow.tsx:67-74 | The step-1 request passes the route's field check exactly when the context, the intent and the user are all non-empty. |
| Wiring.Step2RequestOf | components/lesson-flow.tsx:113-123 | The step-2 request passes the field check under the same condition. The route resolves it to the original input when confirmed, and otherwise to the clarification or "". It records the summary the client showed and the decision. It records the clarification exactly when the learner declined and typed one. |
| Wiring.ContinueReachesStepTwo | components/lesson-flow.tsx:53-92 | An enabled "Continue" whose summary comes back non-blank makes exactly one summarize call for the two texts on screen, and lands on step 2 showing the trimmed summary with nothing else in the record changed. |
| Wiring.Seen | components/lesson-flow.tsx:79-83 | The client treats a reply as successful exactly when its status is 200, and then reads its body. |
| Wiring.ContinuePassesValidation | app/api/lesson/step1/route.ts:11-14 | A step-1 request the client can send is never rejected as missing a field. |
| Wiring.ResolvedIntent | app/api/lesson/step2/route.ts:39 | Confirming sends corrections for the original input. Submitting a clarification sends them for the clarification text. |
| Wiring.ClientMatchesStoredLesson | components/lesson-flow.tsx:137-150 | After a successful step 2, the client is at step 3. Its step-3 fields, AI summary and decision equal those of any row after the route's updates are applied to it. The row the code selects is the previous lesson (see `LessonStore`). |
| Wiring.StoredLessonAgrees | app/api/lesson/step2/route.ts:18-108 | A valid step-2 request whose answer parses succeeds. Any row the two updates are applied to then holds the answer in its step-3 fields, the client's summary and the decision. |
| LessonStore.Insert | app/api/lesson/save/route.ts:42-60 | Saving appends the client's lesson as the newest row and keeps every earlier row. |
| LessonStore.UpdateNewest | app/api/lesson/step2/route.ts:27-32 | As written: the newest row gets the update and every other row is kept. With no rows nothing changes. |
| LessonStore.StepTwoRewritesFinishedLesson | app/api/lesson/step2/route.ts:27-37 | As written: a learner whose only stored lesson is rated and who completes step 2 of a new lesson gets the new corrections written over that finished lesson. |
| LessonStore.UpdateInProgress | app/api/lesson/step2/route.ts:27-32 | Corrected: only a newest lesson still in progress (unrated) is updated, as the newest-row update does. A finished lesson keeps every field. |
| LessonStore.FinishedLessonsKept | app/api/lesson/step2/route.ts:27-113 | Corrected: over any sequence of handler calls, every finished lesson keeps every field. |
| LessonStore.StepTwoKeepsFinishedLessons | app/api/lesson/step2/route.ts:6-121 | Corrected: whatever the request and outcomes, the step-2 route leaves every finished lesson as it was. |
| LessonStore.InProgressLessonUpdated | app/api/lesson/step2/route.ts:27-113 | Corrected: a newest lesson still in progress receives all of the handler's updates in order, as `Api.ApplyAll` describes, so the `Wiring` lemmas hold for it. |
| Wiring.FailedStep2ChangesNothing | components/lesson-flow.tsx:128-158 | Whatever the reason a step-2 request fails, the client's state is unchanged. |

## Left out

- Rendering, styling and date formatting are left out. So are `toFixed(1)` and the number-versus-string return type of the average: the average is a real quotient.
- `fetch`, `generateText`, prompts, model names and token limits are not modelled. Their outcomes are parameters (`Outcome`, `Generation`, `Decoded`).
- `JSON.parse` is a parameter function, and the parsed answer is assumed to have six string fields. The step-2 route does not check the answer's shape, so a missing `corrected` is not an error there, and the model does not represent missing fields either.
- Step1Route.Post, ClarifyRoute.Post, Step2Route.Decode: a `generateText` result whose `text` is `undefined` is not modelled; the AI answer is always a string. The code would answer 500 in step 1 and clarify (the `!text` check), and `text.trim()` would throw in step 2, giving a 500 through the outer `catch`.
- Database access is a success flag per update. The row the step-2 route updates is the user's newest stored lesson, never the one on screen, because the client has not inserted that one yet (`LessonStore`). The routes' functions take an arbitrary row, and `LessonStore` says which row it is. Left out are `createServerClient` throwing (that would be a 500 through the outer `catch`) and the save route's authentication and user-record checks.
- Step2Route.Step2Fields: an `originalClarification` sent as JSON `null` is written to the row as NULL by the code. The model treats `null` like an absent field, so `Lesson.Apply` keeps the old column instead.
- The lesson-details view and the pages are left out, because they only render or redirect.
- `console` and `alert` calls are not modelled.
- Concurrency is not modelled. Each action runs to completion, so the loading flag is false between actions. `resetLesson` does not clear the loading flag in the code, and `LessonFlow.Reset` keeps it too.
- A non-boolean `confirmed` in a step-2 request is not modelled.
- Dashboard.Title: counts Dafny characters (Unicode scalar values), while `substring(0, 60)` counts UTF-16 code units. The two differ for characters outside the Basic Multilingual Plane. The same applies to white space in `Js.Trim`.
- Wiring.ClientMatchesStoredLesson: it does not compare `step2UserClarification`. When the learner confirms, the client sets it to "" but the route leaves the stored column as it was.

## Findings

| source | as written | input that shows it | evidently intended | confidence | as-written member | corrected member |
|---|---|---|---|---|---|---|
| app/api/lesson/step2/route.ts:27-32 | The step-2 and step-3 updates go to the user's newest lesson row. The lesson on screen has no row until it is rated (save/route.ts:42-60, called from components/lesson-flow.tsx:165-172). | A learner with one rated lesson starts a second lesson and completes step 2. The first lesson's summary, decision and corrections are replaced by the second's. | The updates reach only the lesson in progress, and a finished lesson keeps what the learner rated. | medium, not executed | LessonStore.StepTwoRewritesFinishedLesson | LessonStore.StepTwoKeepsFinishedLessons |

=== FILE: api.dfy ===
/**
 What the lesson routes have in common: the reply a handler returns, the
 reasons it can fail with, the outcome of a text-generation call, and the
 side effects a handler performs, in order, so that "before any call" and
 "without calling the AI" can be stated about a handler's result.
 */
module Api {
  import opened Js
  import opened Lesson

  /** Why a route answered with an error. */
  datatype Reason =
    | MissingFields       // a required request field is absent or empty
    | MissingApiKey       // the generation API key is not configured
    | EmptyAiResponse     // the generated text is empty or white space
    | LessonUpdateFailed  // the step-2 row update was rejected
    | ParseFailed         // the generated text did not parse as JSON
    | SaveCorrectionsFailed  // the step-3 row update was rejected
    | Unexpected          // an exception reached the outer `catch`

  /** A JSON response: a success body, or an error with a reason. */
  datatype Reply<+T> = Ok(body: T) | Error(reason: Reason) {
    /** The HTTP status the route sets. */
    function Status(): (code: int)
      ensures code == 200 <==> Ok?
      ensures code == 400 <==> (Error? && reason == MissingFields)
      ensures code == 200 || code == 400 || code == 500
    {
      match this
      case Ok(_) => 200
      case Error(MissingFields) => 400
      case Error(_) => 500
    }
  }

  /** The outcome of a `generateText` call: its text, or an exception. */
  datatype Generation = Text(text: string) | Threw

  /** The calls a handler makes to its collaborators, in order. */
  datatype Effect =
    | SummarizeIntent(context: string, input: string, clarification: Option<string>)
    | GenerateCorrections(context: string, intent: Option<string>)
    | UpdateLatestLesson(userId: string, fields: map<Column, Value>)
  {
    predicate IsGeneration() {
      SummarizeIntent? || GenerateCorrections?
    }
  }

  /** A handler's reply together with the calls it made. */
  datatype Handled<+T> = Handled(reply: Reply<T>, effects: seq<Effect>)

  /** The lesson row after a handler's updates were applied in order
      (generation calls leave it alone). */
  function ApplyAll(row: LessonData, effects: seq<Effect>): LessonData
    decreases |effects|
  {
    if effects == [] then row
    else
      var next := if effects[0].UpdateLatestLesson? then Apply(row, effects[0].fields) else row;
      ApplyAll(next, effects[1..])
  }

  predicate CallsNoGenerator(effects: seq<Effect>) {
    forall i :: 0 <= i < |effects| ==> !effects[i].IsGeneration()
  }
}

=== FILE: clarify_route.dfy ===
/**
 POST /api/lesson/clarify: like step 1, but with the learner's clarification
 folded in; it also returns the context merged with the clarification. The
 client in components/lesson-flow.tsx never calls this route.
 */
module ClarifyRoute {
  import opened Js
  import opened Api

  datatype Request = Request(
    context: Option<string>,
    input: Option<string>,
    clarification: Option<string>,
    userId: Option<string>)

  /** The success body: the trimmed summary and the merged context. */
  datatype Answer = Answer(clarification: string, enhancedContext: string)

  predicate HasRequiredFields(r: Request) {
    Truthy(r.context) && Truthy(r.input) && Truthy(r.clarification) && Truthy(r.userId)
  }

  const Separator := "\n\nAdditional clarification: "

  /** The context with the clarification appended after a fixed separator: it
      starts with the context, ends with the clarification, and the
      clarification can be read back from it given the context. */
  function EnhancedContext(context: string, clarification: string): (r: string)
    ensures |r| == |context| + |Separator| + |clarification|
    ensures r[..|context|] == context
    ensures r[|context|..|context| + |Separator|] == Separator
    ensures r[|context| + |Separator|..] == clarification
  {
    context + Separator + clarification
  }

  /** Reads the clarification back out of a merged context. */
  function ClarificationIn(merged: string, context: string): Option<string> {
    var n := |context| + |Separator|;
    if n <= |merged| && merged[..|context|] == context && merged[|context|..n] == Separator
    then Some(merged[n..])
    else None
  }

  /** Merging loses nothing: the clarification is recovered exactly, so two
      different clarifications never give the same merged context. */
  lemma EnhancedContextRoundTrip(context: string, clarification: string)
    ensures ClarificationIn(EnhancedContext(context, clarification), context) == Some(clarification)
  {
  }

  lemma EnhancedContextInjective(context: string, c1: string, c2: string)
    requires EnhancedContext(context, c1) == EnhancedContext(context, c2)
    ensures c1 == c2
  {
    EnhancedContextRoundTrip(context, c1);
    EnhancedContextRoundTrip(context, c2);
  }

  /** The handler, with the same parameters as the step-1 handler. */
  function Post(request: Option<Request>, hasApiKey: bool, generation: Generation): (h: Handled<Answer>)
    ensures request.None? ==> h == Handled(Error(Unexpected), [])
    ensures request.Some? && !HasRequiredFields(request.value) ==>
              h == Handled(Error(MissingFields), [])
    ensures h.reply == Error(MissingFields) <==> request.Some? && !HasRequiredFields(request.value)
    ensures request.Some? && HasRequiredFields(request.value) && !hasApiKey ==>
              h == Handled(Error(MissingApiKey), [])
    ensures h.effects != [] <==> request.Some? && HasRequiredFields(request.value) && hasApiKey
    ensures h.effects == [] || h.effects ==
              [SummarizeIntent(request.value.context.value, request.value.input.value,
                               request.value.clarification)]
    ensures h.reply.Ok? <==>
              && request.Some? && HasRequiredFields(request.value) && hasApiKey
              && generation.Text? && !AllSpace(generation.text)
    ensures h.reply.Ok? ==>
              && h.reply.body.clarification != ""
              && Trimmed(h.reply.body.clarification)
              && h.reply.body.clarification == Trim(generation.text)
              && ClarificationIn(h.reply.body.enhancedContext, request.value.context.value)
                 == request.value.clarification
    ensures h.effects != [] && generation.Threw? ==> h.reply == Error(Unexpected)
    ensures h.effects != [] && generation.Text? && AllSpace(generation.text) ==>
              h.reply == Error(EmptyAiResponse)
  {
    match request
    case None => Handled(Error(Unexpected), [])
    case Some(r) =>
      if !HasRequiredFields(r) then Handled(Error(MissingFields), [])
      else if !hasApiKey then Handled(Error(MissingApiKey), [])
      else
        var enhanced := EnhancedContext(r.context.value, r.clarification.value);
        var calls := [SummarizeIntent(r.context.value, r.input.value, r.clarification)];
        match generation
        case Threw => Handled(Error(Unexpected), calls)
        case Text(text) =>
          if Trim(text) == [] then Handled(Error(EmptyAiResponse), calls)
          else
            EnhancedContextRoundTrip(r.context.value, r.clarification.value);
            Handled(Ok(Answer(Trim(text), enhanced)), calls)
  }
}

=== FILE: dashboard.dfy ===
/**
 The dashboard's figures over the learner's stored lessons: how many are
 rated, the average rating, the streak card, the shortened title and status
 badge of each lesson, and whether the "View All Lessons" link shows.
 */
module Dashboard {
  import opened Js
  import opened Lesson

  /** `lesson.rating` is truthy: present and not zero. */
  predicate HasRating(l: LessonData) {
    l.rating.Some? && l.rating.value != 0
  }

  /** The positions of the rated lessons. */
  function RatedAt(lessons: seq<LessonData>): set<nat> {
    set i: nat | i < |lessons| && HasRating(lessons[i])
  }

  /** The positions of the lessons rated `x`. */
  function RatedWith(lessons: seq<LessonData>, x: int): set<nat> {
    set i: nat | i < |lessons| && HasRating(lessons[i]) && lessons[i].rating.value == x
  }

  /** The ratings of the rated lessons, in order
      (`lessons.filter((l) => l.rating)`). */
  function Ratings(lessons: seq<LessonData>): (r: seq<int>)
    ensures |r| <= |lessons|
    ensures forall x :: x in r ==> x != 0
    ensures forall i :: 0 <= i < |lessons| && HasRating(lessons[i]) ==> lessons[i].rating.value in r
    ensures forall x :: x in r ==> exists i :: 0 <= i < |lessons| && lessons[i].rating == Some(x)
  {
    if lessons == [] then []
    else
      var init := lessons[..|lessons| - 1];
      var last := lessons[|lessons| - 1];
      var r := Ratings(init) + (if HasRating(last) then [last.rating.value] else []);
      assert forall i :: 0 <= i < |init| ==> init[i] == lessons[i];
      r
  }

  /** The filter keeps one entry per rated lesson, and each rating as often
      as lessons carry it. */
  lemma RatingsCount(lessons: seq<LessonData>)
    ensures |Ratings(lessons)| == |RatedAt(lessons)|
    ensures forall x :: multiset(Ratings(lessons))[x] == |RatedWith(lessons, x)|
  {
    RatedCount(lessons);
    forall x ensures multiset(Ratings(lessons))[x] == |RatedWith(lessons, x)| {
      Multiplicity(lessons, x);
    }
  }

  lemma {:induction false} RatedCount(lessons: seq<LessonData>)
    ensures |Ratings(lessons)| == |RatedAt(lessons)|
    decreases |lessons|
  {
    if lessons != [] {
      var n := |lessons| - 1;
      RatedCount(lessons[..n]);
      RatedAtSnoc(lessons);
    }
  }

  lemma {:induction false} Multiplicity(lessons: seq<LessonData>, x: int)
    ensures multiset(Ratings(lessons))[x] == |RatedWith(lessons, x)|
    decreases |lessons|
  {
    if lessons != [] {
      var n := |lessons| - 1;
      var last := lessons[n];
      Multiplicity(lessons[..n], x);
      RatedWithSnoc(lessons, x);
      assert Ratings(lessons) == Ratings(lessons[..n]) + (if HasRating(last) then [last.rating.value] else []);
    }
  }

  lemma RatedAtSnoc(lessons: seq<LessonData>)
    requires lessons != []
    ensures RatedAt(lessons) == RatedAt(lessons[..|lessons| - 1])
              + (if HasRating(lessons[|lessons| - 1]) then {|lessons| - 1} else {})
    ensures |lessons| - 1 !in RatedAt(lessons[..|lessons| - 1])
  {
    var n := |lessons| - 1;
    assert forall i :: 0 <= i < n ==> lessons[..n][i] == lessons[i];
  }

  lemma RatedWithSnoc(lessons: seq<LessonData>, x: int)
    requires lessons != []
    ensures RatedWith(lessons, x) == RatedWith(lessons[..|lessons| - 1], x)
              + (if HasRating(lessons[|lessons| - 1]) && lessons[|lessons| - 1].rating.value == x
                 then {|lessons| - 1} else {})
    ensures |lessons| - 1 !in RatedWith(lessons[..|lessons| - 1], x)
  {
    var n := |lessons| - 1;
    assert forall i :: 0 <= i < n ==> lessons[..n][i] == lessons[i];
  }

  function Sum(xs: seq<int>): int {
    if xs == [] then 0 else Sum(xs[..|xs| - 1]) + xs[|xs| - 1]
  }

  /** The arithmetic mean, 0 for no values. */
  function Mean(xs: seq<int>): real {
    if xs == [] then 0.0 else Sum(xs) as real / |xs| as real
  }

  function Min(xs: seq<int>): (m: int)
    requires xs != []
    ensures m in xs && forall i :: 0 <= i < |xs| ==> m <= xs[i]
  {
    if |xs| == 1 then xs[0]
    else
      var m := Min(xs[1..]);
      assert forall i :: 1 <= i < |xs| ==> xs[i] == xs[1..][i - 1];
      if xs[0] <= m then xs[0] else m
  }

  function Max(xs: seq<int>): (m: int)
    requires xs != []
    ensures m in xs && forall i :: 0 <= i < |xs| ==> xs[i] <= m
  {
    if |xs| == 1 then xs[0]
    else
      var m := Max(xs[1..]);
      assert forall i :: 1 <= i < |xs| ==> xs[i] == xs[1..][i - 1];
      if xs[0] >= m then xs[0] else m
  }

  /** Values between two bounds sum to between `n * lo` and `n * hi`. */
  lemma {:induction false} SumBetween(xs: seq<int>, lo: int, hi: int)
    requires forall i :: 0 <= i < |xs| ==> lo <= xs[i] <= hi
    ensures |xs| * lo <= Sum(xs) <= |xs| * hi
    decreases |xs|
  {
    if xs != [] {
      var init := xs[..|xs| - 1];
      var n := |init|;
      assert forall i :: 0 <= i < n ==> init[i] == xs[i];
      SumBetween(init, lo, hi);
      assert Sum(xs) == Sum(init) + xs[n];
      assert |xs| * lo == n * lo + lo && |xs| * hi == n * hi + hi;
    }
  }

  /** The mean of values between two bounds lies between them. */
  lemma MeanBetween(xs: seq<int>, lo: int, hi: int)
    requires xs != []
    requires forall i :: 0 <= i < |xs| ==> lo <= xs[i] <= hi
    ensures lo as real <= Mean(xs) <= hi as real
  {
    SumBetween(xs, lo, hi);
    ProductAsReal(|xs|, lo);
    ProductAsReal(|xs|, hi);
    QuotientBetween(Sum(xs) as real, |xs| as real, lo as real, hi as real);
  }

  lemma ProductAsReal(a: int, b: int)
    ensures (a * b) as real == a as real * b as real
  {
  }

  lemma QuotientBetween(s: real, n: real, lo: real, hi: real)
    requires n > 0.0 && n * lo <= s <= n * hi
    ensures lo <= s / n <= hi
  {
    var q := s / n;
    assert q * n == s;
    assert (q - lo) * n >= 0.0;
    assert (hi - q) * n >= 0.0;
  }

  /** The mean of a non-empty sequence lies between its least and greatest
      element. */
  lemma MeanBetweenMinMax(xs: seq<int>)
    requires xs != []
    ensures Min(xs) as real <= Mean(xs) <= Max(xs) as real
  {
    MeanBetween(xs, Min(xs), Max(xs));
  }

  lemma {:induction false} SumAppend(xs: seq<int>, x: int)
    ensures Sum(xs + [x]) == Sum(xs) + x
  {
    assert (xs + [x])[..|xs|] == xs;
  }

  lemma RatingsOfPrefix(lessons: seq<LessonData>, i: nat)
    requires i < |lessons|
    ensures Ratings(lessons[..i + 1]) == Ratings(lessons[..i])
              + (if HasRating(lessons[i]) then [lessons[i].rating.value] else [])
  {
    assert lessons[..i + 1][..i] == lessons[..i];
  }

  /** `getAverageRating`: 0 when no lesson is rated, otherwise the mean of the
      ratings of the rated lessons, which lies between the smallest and the
      largest of them. */
  method AverageRating(lessons: seq<LessonData>) returns (avg: real)
    ensures avg == Mean(Ratings(lessons))
    ensures Ratings(lessons) == [] ==> avg == 0.0
    ensures Ratings(lessons) != [] ==>
              Min(Ratings(lessons)) as real <= avg <= Max(Ratings(lessons)) as real
  {
    var sum := 0;
    var count := 0;
    var i := 0;
    while i < |lessons|
      invariant 0 <= i <= |lessons|
      invariant sum == Sum(Ratings(lessons[..i]))
      invariant count == |Ratings(lessons[..i])|
    {
      var l := lessons[i];
      RatingsOfPrefix(lessons, i);
      if HasRating(l) {
        assert Ratings(lessons[..i + 1]) == Ratings(lessons[..i]) + [l.rating.value];
        SumAppend(Ratings(lessons[..i]), l.rating.value);
        sum := sum + l.rating.value;
        count := count + 1;
      } else {
        assert Ratings(lessons[..i + 1]) == Ratings(lessons[..i]) + [];
        assert Ratings(lessons[..i]) + [] == Ratings(lessons[..i]);
      }
      i := i + 1;
    }
    assert lessons[..i] == lessons;
    if count == 0 {
      avg := 0.0;
    } else {
      avg := sum as real / count as real;
      MeanBetweenMinMax(Ratings(lessons));
    }
  }

  /** When every stored rating is a star value, the average is within the
      "out of 5 stars" scale. */
  lemma AverageWithinStars(lessons: seq<LessonData>)
    requires forall i :: 0 <= i < |lessons| && lessons[i].rating.Some? ==> 1 <= lessons[i].rating.value <= 5
    ensures 0.0 <= Mean(Ratings(lessons)) <= 5.0
  {
    var r := Ratings(lessons);
    if r != [] {
      forall k | 0 <= k < |r| ensures 1 <= r[k] <= 5 {
        assert r[k] in r;
      }
      MeanBetween(r, 1, 5);
    }
  }

  const TitleLength := 60

  /** The lesson title: the first 60 characters of the context, followed by
      "..." exactly when something was cut off. */
  function Title(context: string): (t: string)
    ensures |context| <= TitleLength ==> t == context
    ensures |context| > TitleLength ==>
              |t| == TitleLength + 3 && t[..TitleLength] == context[..TitleLength]
              && t[TitleLength..] == "..."
    ensures |t| <= TitleLength + 3
    ensures |t| <= |context| + 3
  {
    var shown := if |context| <= TitleLength then context else context[..TitleLength];
    shown + (if |context| > TitleLength then "..." else "")
  }

  /** The "Learning Streak" card: the lesson count, capped at 7. */
  function Streak(lessonCount: nat): (days: nat)
    ensures days <= 7 && days <= lessonCount
    ensures lessonCount <= 7 ==> days == lessonCount
    ensures lessonCount >= 7 ==> days == 7
  {
    if lessonCount > 0 then (if lessonCount < 7 then lessonCount else 7) else 0
  }

  datatype Badge = Completed | InProgress

  /** The status badge of a lesson. */
  function Status(l: LessonData): (b: Badge)
    ensures b == Completed <==> l.step3Corrected != ""
  {
    if l.step3Corrected != "" then Completed else InProgress
  }

  /** The three stat cards and the "View All Lessons" link. */
  datatype Stats = Stats(total: nat, rated: nat, streak: nat, viewAll: bool)

  function StatsOf(lessons: seq<LessonData>): (s: Stats)
    ensures s.total == |lessons|
    ensures s.rated <= s.total
    ensures s.rated == |RatedAt(lessons)|
    ensures s.streak <= 7 && s.streak <= s.total
    ensures s.viewAll <==> s.total >= 10
    ensures s.viewAll ==> s.streak == 7
  {
    RatingsCount(lessons);
    Stats(|lessons|, |Ratings(lessons)|, Streak(|lessons|), |lessons| >= 10)
  }
}

=== FILE: js.dfy ===
/**
 JavaScript value conventions the lesson code relies on: a value that may be
 `undefined`/`null`, the truthiness of strings, and the white space that
 `String.prototype.trim` removes and the regular-expression class `\s` matches.
 */
module Js {

  /** A value that may be absent. `undefined` and `null` are both `None`:
      they agree for truthiness and `||`, which is what the model uses them
      for. */
  datatype Option<+T> = None | Some(value: T)

  /** A string-valued field is falsy exactly when it is absent or empty. */
  predicate Truthy(s: Option<string>) {
    s.Some? && s.value != ""
  }

  /** `x || ""` for a possibly absent string. */
  function OrEmpty(s: Option<string>): (r: string)
    ensures Truthy(s) ==> r == s.value
    ensures !Truthy(s) ==> r == ""
  {
    match s
    case Some(v) => v
    case None => ""
  }

  /** ECMAScript WhiteSpace and LineTerminator code points: the set removed by
      `trim` and matched by `\s`. */
  const Spaces: set<char> := {
    ' ', '\t', '\n', '\r', '\U{000B}', '\U{000C}', '\U{00A0}', '\U{1680}',
    '\U{2000}', '\U{2001}', '\U{2002}', '\U{2003}', '\U{2004}', '\U{2005}',
    '\U{2006}', '\U{2007}', '\U{2008}', '\U{2009}', '\U{200A}',
    '\U{2028}', '\U{2029}', '\U{202F}', '\U{205F}', '\U{3000}', '\U{FEFF}'
  }

  predicate IsSpace(c: char) {
    c in Spaces
  }

  predicate AllSpace(s: string) {
    forall i :: 0 <= i < |s| ==> IsSpace(s[i])
  }

  /** Neither the first nor the last character is white space. */
  predicate Trimmed(s: string) {
    s == [] || (!IsSpace(s[0]) && !IsSpace(s[|s| - 1]))
  }

  /** Removes every leading white-space character: the result is a suffix of
      `s`, what was dropped is all white space, and what is kept does not start
      with white space. */
  function TrimStart(s: string): (r: string)
    ensures |r| <= |s| && r == s[|s| - |r|..]
    ensures forall i :: 0 <= i < |s| - |r| ==> IsSpace(s[i])
    ensures r == [] || !IsSpace(r[0])
  {
    if |s| > 0 && IsSpace(s[0]) then
      var r := TrimStart(s[1..]);
      assert forall i :: 1 <= i < |s| ==> s[1..][i - 1] == s[i];
      assert s[1..][|s| - 1 - |r|..] == s[|s| - |r|..];
      r
    else
      s
  }

  /** Removes every trailing white-space character: the result is a prefix of
      `s`, what was dropped is all white space, and what is kept does not end
      with white space. */
  function TrimEnd(s: string): (r: string)
    ensures |r| <= |s| && r == s[..|r|]
    ensures forall i :: |r| <= i < |s| ==> IsSpace(s[i])
    ensures r == [] || !IsSpace(r[|r| - 1])
  {
    if |s| > 0 && IsSpace(s[|s| - 1]) then
      var r := TrimEnd(s[..|s| - 1]);
      assert forall i :: 0 <= i < |s| - 1 ==> s[..|s| - 1][i] == s[i];
      r
    else
      s
  }

  /** `String.prototype.trim`. */
  function Trim(s: string): (r: string)
    ensures |r| <= |s|
    ensures Trimmed(r)
    ensures r == [] <==> AllSpace(s)
  {
    var a := TrimStart(s);
    var r := TrimEnd(a);
    assert a != [] ==> !IsSpace(a[0]) && r != [] && a[0] == s[|s| - |a|];
    assert r != [] ==> r[0] == a[0];
    assert a == [] ==> AllSpace(s);
    r
  }

  /** The client's `!x.trim()`: nothing but white space, which by the
      contract of `Trim` is exactly when the trimmed string is empty. */
  predicate Blank(s: string) {
    AllSpace(s)
  }

  /** Only a non-empty string can be non-blank. */
  lemma NonBlankIsNonEmpty(s: string)
    requires !Blank(s)
    ensures s != []
  {
  }

  /** Trimming splits its input into white space, the result, and white space. */
  lemma {:induction false} TrimSplits(s: string) returns (lead: string, trail: string)
    ensures s == lead + Trim(s) + trail
    ensures AllSpace(lead) && AllSpace(trail)
  {
    var a := TrimStart(s);
    lead := LeadOf(s);
    trail := TrailOf(a);
    Regroup(lead, TrimEnd(a), trail);
  }

  /** Trimming a string that already has no white space at either end changes
      nothing; in particular trimming is idempotent. */
  lemma {:induction false} TrimOfTrimmed(s: string)
    requires Trimmed(s)
    ensures Trim(s) == s
  {
    if s != [] {
      assert TrimStart(s) == s;
      assert TrimEnd(s) == s;
    }
  }

  lemma TrimIdempotent(s: string)
    ensures Trim(Trim(s)) == Trim(s)
  {
    TrimOfTrimmed(Trim(s));
  }

  /** White-space padding on either side does not change the trimmed value:
      together with `TrimOfTrimmed` this pins `Trim` down completely. */
  lemma {:induction false} TrimIgnoresPadding(lead: string, m: string, trail: string)
    requires AllSpace(lead) && AllSpace(trail)
    ensures Trim(lead + m + trail) == Trim(m)
  {
    Regroup(lead, m, trail);
    StartIgnoresLead(lead, m + trail);
    TrailDoesNotSurvive(m, trail);
  }

  lemma {:induction false} TrailDoesNotSurvive(m: string, trail: string)
    requires AllSpace(trail)
    ensures TrimEnd(TrimStart(m + trail)) == TrimEnd(TrimStart(m))
  {
    var a := TrimStart(m);
    var dropped := LeadOf(m);
    Regroup(dropped, a, trail);
    StartIgnoresLead(dropped, a + trail);
    if a == [] {
      assert a + trail == trail;
      AllSpaceTrimsAway(trail);
    } else {
      NoLeadingSpace(a, trail);
      EndIgnoresTrail(a, trail);
    }
  }

  /** The white space `TrimStart` drops. */
  lemma LeadOf(s: string) returns (lead: string)
    ensures s == lead + TrimStart(s) && AllSpace(lead)
  {
    var k := |s| - |TrimStart(s)|;
    lead := s[..k];
    assert s == lead + s[k..];
    assert forall i :: 0 <= i < k ==> lead[i] == s[i];
  }

  /** The white space `TrimEnd` drops. */
  lemma TrailOf(s: string) returns (trail: string)
    ensures s == TrimEnd(s) + trail && AllSpace(trail)
  {
    var k := |TrimEnd(s)|;
    trail := s[k..];
    assert s == s[..k] + trail;
    assert forall i :: 0 <= i < |trail| ==> trail[i] == s[k + i];
  }

  lemma SplitAt(s: string, k: nat)
    requires k <= |s|
    ensures s == s[..k] + s[k..]
  {
  }

  lemma Regroup(x: string, y: string, z: string)
    ensures (x + y) + z == x + (y + z)
  {
  }

  lemma NoLeadingSpace(a: string, trail: string)
    requires a != [] && !IsSpace(a[0])
    ensures TrimStart(a + trail) == a + trail
  {
    assert (a + trail)[0] == a[0];
  }

  lemma AllSpaceTrimsAway(s: string)
    requires AllSpace(s)
    ensures TrimStart(s) == []
  {
    StartIgnoresLead(s, []);
    assert s + [] == s;
  }

  lemma {:induction false} StartIgnoresLead(lead: string, s: string)
    requires AllSpace(lead)
    ensures TrimStart(lead + s) == TrimStart(s)
    decreases |lead|
  {
    if lead != [] {
      assert (lead + s)[1..] == lead[1..] + s;
      StartIgnoresLead(lead[1..], s);
    } else {
      assert lead + s == s;
    }
  }

  lemma {:induction false} EndIgnoresTrail(s: string, trail: string)
    requires AllSpace(trail)
    ensures TrimEnd(s + trail) == TrimEnd(s)
    decreases |trail|
  {
    if trail != [] {
      assert (s + trail)[..|s + trail| - 1] == s + trail[..|trail| - 1];
      EndIgnoresTrail(s, trail[..|trail| - 1]);
    } else {
      assert s + trail == s;
    }
  }
}

=== FILE: lesson.dfy ===
/**
 The lesson record shared by the client, the step routes and the dashboard:
 the twelve fields of a lesson, the six-field corrections payload the AI
 produces in step 3, and the columns the step-2 route writes to the stored row.
 */
module Lesson {
  import opened Js

  /** The structured step-3 payload: a corrected sentence, notes, and two
      alternatives with their notes. */
  datatype Corrections = Corrections(
    corrected: string,
    notes: string,
    alternative1: string,
    alternative1Notes: string,
    alternative2: string,
    alternative2Notes: string)

  /** One lesson, as the client accumulates it and the store keeps it. */
  datatype LessonData = LessonData(
    step1Context: string,
    step1Input: string,
    step2Clarification: string,
    step2UserConfirmation: bool,
    step2UserClarification: string,
    step3Corrected: string,
    step3Notes: string,
    step3Alternative1: string,
    step3Alternative1Notes: string,
    step3Alternative2: string,
    step3Alternative2Notes: string,
    rating: Option<int>)
  {
    /** The six step-3 fields read back as a corrections payload. */
    function Step3(): Corrections {
      Corrections(step3Corrected, step3Notes, step3Alternative1,
                  step3Alternative1Notes, step3Alternative2, step3Alternative2Notes)
    }

    /** Every field is still at its initial value except possibly the two
        step-1 texts. */
    predicate OnlyStep1Filled() {
      step2Clarification == "" && NoDecisionYet()
    }

    /** The step-2 decision, the step-3 fields and the rating are still at
        their initial values. */
    predicate NoDecisionYet() {
      && !step2UserConfirmation
      && step2UserClarification == ""
      && Step3() == NoCorrections
      && rating == None
    }
  }

  const NoCorrections := Corrections("", "", "", "", "", "")

  /** The record a new lesson starts from: every text empty, not confirmed,
      not rated. */
  const Empty := LessonData("", "", "", false, "", "", "", "", "", "", "", None)

  /** Stores a corrections payload into the six step-3 fields, leaving every
      other field alone. */
  function WithCorrections(d: LessonData, c: Corrections): (e: LessonData)
    ensures e.Step3() == c
    ensures e.step1Context == d.step1Context && e.step1Input == d.step1Input
    ensures e.step2Clarification == d.step2Clarification
    ensures e.step2UserConfirmation == d.step2UserConfirmation
    ensures e.step2UserClarification == d.step2UserClarification
    ensures e.rating == d.rating
  {
    d.(step3Corrected := c.corrected, step3Notes := c.notes,
       step3Alternative1 := c.alternative1, step3Alternative1Notes := c.alternative1Notes,
       step3Alternative2 := c.alternative2, step3Alternative2Notes := c.alternative2Notes)
  }

  /** The columns of a stored lesson that the step-2 route updates. */
  datatype Column =
    | Step2ClarificationCol
    | Step2UserConfirmationCol
    | Step2UserClarificationCol
    | Step3CorrectedCol
    | Step3NotesCol
    | Step3Alternative1Col
    | Step3Alternative1NotesCol
    | Step3Alternative2Col
    | Step3Alternative2NotesCol

  /** A JSON value in an update object; `Undefined` is dropped on the wire.
      A JSON `null` is not distinguished from `Undefined`. */
  datatype Value = Str(s: string) | Bool(b: bool) | Undefined

  /** A string that may be absent, as a value of an update object. */
  function ValueOf(s: Option<string>): (v: Value)
    ensures s.Some? <==> v.Str?
    ensures s.Some? ==> v.s == s.value
  {
    match s
    case Some(x) => Str(x)
    case None => Undefined
  }

  const Step3Columns: set<Column> := {
    Step3CorrectedCol, Step3NotesCol, Step3Alternative1Col,
    Step3Alternative1NotesCol, Step3Alternative2Col, Step3Alternative2NotesCol
  }

  /** An update object that writes a corrections payload into the step-3
      columns and touches nothing else. */
  function Step3Fields(c: Corrections): (m: map<Column, Value>)
    ensures m.Keys == Step3Columns
    ensures forall k :: k in m ==> m[k].Str?
  {
    map[Step3CorrectedCol := Str(c.corrected),
        Step3NotesCol := Str(c.notes),
        Step3Alternative1Col := Str(c.alternative1),
        Step3Alternative1NotesCol := Str(c.alternative1Notes),
        Step3Alternative2Col := Str(c.alternative2),
        Step3Alternative2NotesCol := Str(c.alternative2Notes)]
  }

  /** What a stored row holds in one of the updatable columns. */
  function ColumnOf(row: LessonData, k: Column): Value {
    match k
    case Step2ClarificationCol => Str(row.step2Clarification)
    case Step2UserConfirmationCol => Bool(row.step2UserConfirmation)
    case Step2UserClarificationCol => Str(row.step2UserClarification)
    case Step3CorrectedCol => Str(row.step3Corrected)
    case Step3NotesCol => Str(row.step3Notes)
    case Step3Alternative1Col => Str(row.step3Alternative1)
    case Step3Alternative1NotesCol => Str(row.step3Alternative1Notes)
    case Step3Alternative2Col => Str(row.step3Alternative2)
    case Step3Alternative2NotesCol => Str(row.step3Alternative2Notes)
  }

  /** The decision column holds a boolean, every other column text. */
  predicate FitsColumn(k: Column, v: Value) {
    if k == Step2UserConfirmationCol then v.Bool? else v.Str?
  }

  /** Applies an update object to a stored row: each present, defined,
      well-typed column is overwritten; everything else is kept. */
  function Apply(row: LessonData, m: map<Column, Value>): (r: LessonData)
    ensures forall k: Column :: k in m && FitsColumn(k, m[k]) ==> ColumnOf(r, k) == m[k]
    ensures forall k: Column :: !(k in m && FitsColumn(k, m[k])) ==> ColumnOf(r, k) == ColumnOf(row, k)
    ensures r.step1Context == row.step1Context && r.step1Input == row.step1Input
    ensures r.rating == row.rating
    ensures Step2UserConfirmationCol !in m ==> r.step2UserConfirmation == row.step2UserConfirmation
    ensures Step2UserClarificationCol !in m ==> r.step2UserClarification == row.step2UserClarification
    ensures (forall k :: k in m ==> k in Step3Columns) ==>
              r.step2Clarification == row.step2Clarification
              && r.step2UserConfirmation == row.step2UserConfirmation
              && r.step2UserClarification == row.step2UserClarification
    ensures (forall k :: k in m ==> k !in Step3Columns) ==> r.Step3() == row.Step3()
  {
    var r := Overwrite(row, m);
    OverwriteColumns(row, m);
    OverwriteFrame(row, m);
    r
  }

  function Overwrite(row: LessonData, m: map<Column, Value>): LessonData {
    row.(step2Clarification := StrAt(m, Step2ClarificationCol, row.step2Clarification),
         step2UserConfirmation := BoolAt(m, Step2UserConfirmationCol, row.step2UserConfirmation),
         step2UserClarification := StrAt(m, Step2UserClarificationCol, row.step2UserClarification),
         step3Corrected := StrAt(m, Step3CorrectedCol, row.step3Corrected),
         step3Notes := StrAt(m, Step3NotesCol, row.step3Notes),
         step3Alternative1 := StrAt(m, Step3Alternative1Col, row.step3Alternative1),
         step3Alternative1Notes := StrAt(m, Step3Alternative1NotesCol, row.step3Alternative1Notes),
         step3Alternative2 := StrAt(m, Step3Alternative2Col, row.step3Alternative2),
         step3Alternative2Notes := StrAt(m, Step3Alternative2NotesCol, row.step3Alternative2Notes))
  }

  lemma OverwriteColumns(row: LessonData, m: map<Column, Value>)
    ensures forall k: Column :: ColumnOf(Overwrite(row, m), k) ==
              if k in m && FitsColumn(k, m[k]) then m[k] else ColumnOf(row, k)
  {
    forall k: Column
      ensures ColumnOf(Overwrite(row, m), k) ==
              if k in m && FitsColumn(k, m[k]) then m[k] else ColumnOf(row, k)
    {
      match k
      case Step2UserConfirmationCol =>
      case _ =>
    }
  }

  /** An update confined to the step-3 columns keeps the step-2 fields, and
      one without step-3 columns keeps the step-3 fields. */
  lemma OverwriteFrame(row: LessonData, m: map<Column, Value>)
    ensures var r := Overwrite(row, m);
      && ((forall k :: k in m ==> k in Step3Columns) ==>
            r.step2Clarification == row.step2Clarification
            && r.step2UserConfirmation == row.step2UserConfirmation
            && r.step2UserClarification == row.step2UserClarification)
      && ((forall k :: k in m ==> k !in Step3Columns) ==> r.Step3() == row.Step3())
  {
    assert Step2ClarificationCol !in Step3Columns && Step2UserConfirmationCol !in Step3Columns
           && Step2UserClarificationCol !in Step3Columns;
    assert Step3CorrectedCol in Step3Columns && Step3NotesCol in Step3Columns
           && Step3Alternative1Col in Step3Columns && Step3Alternative1NotesCol in Step3Columns
           && Step3Alternative2Col in Step3Columns && Step3Alternative2NotesCol in Step3Columns;
  }

  function StrAt(m: map<Column, Value>, k: Column, keep: string): string {
    if k in m && m[k].Str? then m[k].s else keep
  }

  function BoolAt(m: map<Column, Value>, k: Column, keep: bool): bool {
    if k in m && m[k].Bool? then m[k].b else keep
  }

  /** Writing a corrections payload and reading the step-3 fields back gives
      the payload, whatever the row held before. */
  lemma Step3FieldsRoundTrip(row: LessonData, c: Corrections)
    ensures Apply(row, Step3Fields(c)).Step3() == c
    ensures Apply(row, Step3Fields(c)) == WithCorrections(row, c)
  {
  }
}

=== FILE: lesson_flow.dfy ===
/**
 The client-side lesson session: a three-step state machine carrying the
 lesson record and a little UI state. Every handler is a pure transition;
 the awaited server reply is a parameter, and the loading flag, which is set
 for the duration of a request, is false again once a handler has finished.
 */
module LessonFlow {
  import opened Js
  import opened Lesson

  /** `LessonStep = 1 | 2 | 3`. */
  datatype Step = One | Two | Three {
    function Number(): (n: int)
      ensures 1 <= n <= 3
    {
      match this
      case One => 1
      case Two => 2
      case Three => 3
    }
  }

  /** The component state: current step, loading flag, the step-2
      clarification box, the highlighted star and the lesson record. */
  datatype Flow = Flow(
    currentStep: Step,
    isLoading: bool,
    showClarificationInput: bool,
    userClarification: string,
    selectedRating: Option<int>,
    lessonData: LessonData)

  /** What an awaited `fetch` produced: an ok response with its JSON payload,
      or a failure (non-ok status, network error or unreadable body). */
  datatype Outcome<+T> = Answered(value: T) | Failed

  /** The replies the server would give to the requests of one user action. */
  datatype Replies = Replies(step1: Outcome<string>, step2: Outcome<Corrections>, saved: bool)

  const Initial := Flow(One, false, false, "", None, Empty)

  /** The star values the result screen offers. */
  const RatingChoices: seq<int> := [1, 2, 3, 4, 5]

  lemma RatingChoicesAreOneToFive(r: int)
    ensures r in RatingChoices <==> 1 <= r <= 5
  {
  }

  /** "Continue" on step 1. Blank context or intent returns before anything
      happens; otherwise the reply's clarification becomes the step-2 text and
      the flow moves to step 2, and a failed request changes nothing but the
      loading flag. */
  function Step1Submit(f: Flow, reply: Outcome<string>): (g: Flow)
    ensures Blank(f.lessonData.step1Context) || Blank(f.lessonData.step1Input) ==> g == f
    ensures !Blank(f.lessonData.step1Context) && !Blank(f.lessonData.step1Input) ==>
              !g.isLoading
              && (reply.Answered? ==>
                    g.currentStep == Two && g.lessonData.step2Clarification == reply.value)
    ensures g != f ==> !g.isLoading
    ensures g.showClarificationInput == f.showClarificationInput
    ensures g.userClarification == f.userClarification
    ensures g.selectedRating == f.selectedRating
    ensures reply.Failed? ==> g.lessonData == f.lessonData && g.currentStep == f.currentStep
    ensures g.currentStep == Two || g.currentStep == f.currentStep
    ensures g.lessonData.step2Clarification != f.lessonData.step2Clarification ==>
              reply.Answered? && g.lessonData.step2Clarification == reply.value
    ensures g.lessonData == f.lessonData.(step2Clarification := g.lessonData.step2Clarification)
  {
    if Blank(f.lessonData.step1Context) || Blank(f.lessonData.step1Input) then
      f
    else
      match reply
      case Answered(clarification) =>
        f.(lessonData := f.lessonData.(step2Clarification := clarification),
           currentStep := Two, isLoading := false)
      case Failed =>
        f.(isLoading := false)
  }

  /** `handleStep2Submit(confirmed, clarification)`. On success the decision,
      the clarification text (or "") and the six step-3 fields are recorded, the
      flow moves to step 3 and the clarification box is closed and emptied; on
      failure only the loading flag changes. Nothing before step 2 is touched. */
  function Step2Submit(f: Flow, confirmed: bool, clarification: Option<string>,
                       reply: Outcome<Corrections>): (g: Flow)
    ensures !g.isLoading
    ensures g.selectedRating == f.selectedRating
    ensures g.lessonData.step1Context == f.lessonData.step1Context
    ensures g.lessonData.step1Input == f.lessonData.step1Input
    ensures g.lessonData.step2Clarification == f.lessonData.step2Clarification
    ensures g.lessonData.rating == f.lessonData.rating
    ensures reply.Failed? ==> g == f.(isLoading := false)
    ensures reply.Answered? ==>
              && g.currentStep == Three
              && g.lessonData.step2UserConfirmation == confirmed
              && g.lessonData.step2UserClarification == OrEmpty(clarification)
              && g.lessonData.Step3() == reply.value
              && !g.showClarificationInput
              && g.userClarification == ""
  {
    match reply
    case Answered(c) =>
      var d := f.lessonData.(step2UserConfirmation := confirmed,
                             step2UserClarification := OrEmpty(clarification));
      f.(lessonData := WithCorrections(d, c), currentStep := Three,
         showClarificationInput := false, userClarification := "", isLoading := false)
    case Failed =>
      f.(isLoading := false)
  }

  /** A star click: the star is highlighted at once; a successful save records
      the rating, a failed one removes the highlight and keeps the previous
      rating. A later click may replace an earlier rating. */
  function Rate(f: Flow, rating: int, saved: bool): (g: Flow)
    ensures !g.isLoading
    ensures g.currentStep == f.currentStep
    ensures g.showClarificationInput == f.showClarificationInput
    ensures g.userClarification == f.userClarification
    ensures saved ==> g.selectedRating == Some(rating) && g.lessonData.rating == Some(rating)
    ensures !saved ==> g.selectedRating == None && g.lessonData.rating == f.lessonData.rating
    ensures g.lessonData == f.lessonData.(rating := g.lessonData.rating)
  {
    var pending := f.(selectedRating := Some(rating), isLoading := true);
    if saved then
      pending.(lessonData := pending.lessonData.(rating := Some(rating)), isLoading := false)
    else
      pending.(selectedRating := None, isLoading := false)
  }

  /** "New Lesson" / "Start New Lesson": back to step 1 with an empty record and
      the UI state cleared. The loading flag is left as it is. */
  function Reset(f: Flow): (g: Flow)
    ensures g.currentStep == One && g.lessonData == Empty
    ensures !g.showClarificationInput && g.userClarification == "" && g.selectedRating == None
    ensures g.isLoading == f.isLoading
  {
    f.(currentStep := One, selectedRating := None, lessonData := Empty,
       showClarificationInput := false, userClarification := "")
  }

  /** Reset forgets everything but the loading flag, so doing it twice is the
      same as doing it once, and from a state that is not loading it gives
      exactly the initial state. */
  lemma ResetRestoresInitial(f: Flow)
    ensures Reset(Reset(f)) == Reset(f)
    ensures !f.isLoading ==> Reset(f) == Initial
    ensures Reset(f) == Reset(Initial.(isLoading := f.isLoading))
  {
  }

  /** "No, let me clarify". */
  function OpenClarification(f: Flow): (g: Flow)
    ensures g.showClarificationInput
    ensures g.lessonData == f.lessonData && g.currentStep == f.currentStep
    ensures g.userClarification == f.userClarification
    ensures g.selectedRating == f.selectedRating && g.isLoading == f.isLoading
  {
    f.(showClarificationInput := true)
  }

  /** "Cancel" on the clarification box: hides and empties it, record untouched. */
  function CancelClarification(f: Flow): (g: Flow)
    ensures !g.showClarificationInput && g.userClarification == ""
    ensures g.lessonData == f.lessonData && g.currentStep == f.currentStep
    ensures g.selectedRating == f.selectedRating && g.isLoading == f.isLoading
  {
    f.(showClarificationInput := false, userClarification := "")
  }

  /** The user actions the screen offers. */
  datatype Action =
    | EditContext(text: string)
    | EditInput(text: string)
    | Continue
    | Confirm
    | OpenClarify
    | EditClarification(text: string)
    | SubmitClarification
    | Cancel
    | RateLesson(stars: int)
    | NewLesson

  /** Whether the control for an action is on screen and not disabled. */
  predicate Enabled(f: Flow, a: Action) {
    match a
    case EditContext(_) => f.currentStep == One
    case EditInput(_) => f.currentStep == One
    case Continue =>
      && f.currentStep == One && !f.isLoading
      && !Blank(f.lessonData.step1Context) && !Blank(f.lessonData.step1Input)
    case Confirm => f.currentStep == Two && !f.showClarificationInput && !f.isLoading
    case OpenClarify => f.currentStep == Two && !f.showClarificationInput && !f.isLoading
    case EditClarification(_) => f.currentStep == Two && f.showClarificationInput
    case SubmitClarification =>
      && f.currentStep == Two && f.showClarificationInput && !f.isLoading
      && !Blank(f.userClarification)
    case Cancel => f.currentStep == Two && f.showClarificationInput && !f.isLoading
    case RateLesson(r) => f.currentStep == Three && r in RatingChoices && !f.isLoading
    case NewLesson => true
  }

  /** One user action against the screen: a disabled or hidden control does
      nothing; an enabled one runs its handler with the server's replies. */
  function Dispatch(f: Flow, a: Action, replies: Replies): (g: Flow)
    ensures !Enabled(f, a) ==> g == f
    ensures Enabled(f, a) && a.EditContext? ==>
              g.lessonData.step1Context == a.text && g.lessonData.step1Input == f.lessonData.step1Input
    ensures Enabled(f, a) && a.EditInput? ==>
              g.lessonData.step1Input == a.text && g.lessonData.step1Context == f.lessonData.step1Context
    ensures Enabled(f, a) && a.EditClarification? ==>
              g.userClarification == a.text && g.lessonData == f.lessonData
    ensures Enabled(f, a) && (a.Confirm? || a.SubmitClarification?) && replies.step2.Answered? ==>
              g.lessonData.step2UserClarification == (if a.Confirm? then "" else f.userClarification)
  {
    if !Enabled(f, a) then f
    else
      match a
      case EditContext(t) => f.(lessonData := f.lessonData.(step1Context := t))
      case EditInput(t) => f.(lessonData := f.lessonData.(step1Input := t))
      case Continue => Step1Submit(f, replies.step1)
      case Confirm => Step2Submit(f, true, None, replies.step2)
      case OpenClarify => OpenClarification(f)
      case EditClarification(t) => f.(userClarification := t)
      case SubmitClarification => Step2Submit(f, false, Some(f.userClarification), replies.step2)
      case Cancel => CancelClarification(f)
      case RateLesson(r) => Rate(f, r, replies.saved)
      case NewLesson => Reset(f)
  }

  /** What holds of every state the screen can reach from the initial one. */
  predicate Inv(f: Flow) {
    && !f.isLoading
    && (f.selectedRating.Some? ==> f.selectedRating.value in RatingChoices)
    && (f.lessonData.rating.Some? ==> f.lessonData.rating.value in RatingChoices)
    && (f.currentStep != Two ==> !f.showClarificationInput && f.userClarification == "")
    && (f.currentStep != Three ==> f.selectedRating == None)
    && (f.currentStep == One ==> f.lessonData.OnlyStep1Filled())
    && (f.currentStep == Two ==>
          && f.lessonData.NoDecisionYet()
          && !Blank(f.lessonData.step1Context) && !Blank(f.lessonData.step1Input))
    && (f.currentStep == Three ==>
          !Blank(f.lessonData.step1Context) && !Blank(f.lessonData.step1Input))
  }

  lemma InitialSatisfiesInv()
    ensures Inv(Initial)
  {
  }

  lemma DispatchPreservesInv(f: Flow, a: Action, replies: Replies)
    requires Inv(f)
    ensures Inv(Dispatch(f, a, replies))
  {
    if Enabled(f, a) {
      match a
      case EditContext(_) =>
      case EditInput(_) =>
      case Continue => Step1KeepsInv(f, replies.step1);
      case Confirm => Step2KeepsInv(f, true, None, replies.step2);
      case OpenClarify =>
      case EditClarification(_) =>
      case SubmitClarification =>
        Step2KeepsInv(f, false, Some(f.userClarification), replies.step2);
      case Cancel =>
      case RateLesson(r) => RateKeepsInv(f, r, replies.saved);
      case NewLesson =>
    }
  }

  lemma Step1KeepsInv(f: Flow, reply: Outcome<string>)
    requires Inv(f) && Enabled(f, Continue)
    ensures Inv(Step1Submit(f, reply))
  {
  }

  lemma Step2KeepsInv(f: Flow, confirmed: bool, clarification: Option<string>, reply: Outcome<Corrections>)
    requires Inv(f) && f.currentStep == Two
    ensures Inv(Step2Submit(f, confirmed, clarification, reply))
  {
  }

  lemma RateKeepsInv(f: Flow, r: int, saved: bool)
    requires Inv(f) && Enabled(f, RateLesson(r))
    ensures Inv(Rate(f, r, saved))
  {
  }

  /** A user session: actions paired with the replies they got. */
  datatype Event = Event(action: Action, replies: Replies)

  function Run(f: Flow, events: seq<Event>): Flow
    decreases |events|
  {
    if events == [] then f
    else Run(Dispatch(f, events[0].action, events[0].replies), events[1..])
  }

  /** Every state reachable from the initial one satisfies the invariant. */
  lemma {:induction false} RunPreservesInv(f: Flow, events: seq<Event>)
    requires Inv(f)
    ensures Inv(Run(f, events))
    decreases |events|
  {
    if events != [] {
      DispatchPreservesInv(f, events[0].action, events[0].replies);
      RunPreservesInv(Dispatch(f, events[0].action, events[0].replies), events[1..]);
    }
  }

  lemma ReachableSatisfiesInv(events: seq<Event>)
    ensures Inv(Run(Initial, events))
  {
    RunPreservesInv(Initial, events);
  }

  /** No action moves the flow to an earlier step except starting a new lesson. */
  lemma NoBackTransition(f: Flow, a: Action, replies: Replies)
    requires a != NewLesson
    ensures Dispatch(f, a, replies).currentStep.Number() >= f.currentStep.Number()
    ensures Dispatch(f, a, replies).currentStep.Number() <= f.currentStep.Number() + 1
  {
    if Enabled(f, a) {
      match a
      case Continue => assert f.currentStep == One;
      case Confirm => assert f.currentStep == Two;
      case SubmitClarification => assert f.currentStep == Two;
      case _ =>
    }
  }

  /** Over any session without "New Lesson" the step never decreases. */
  lemma {:induction false} RunNeverGoesBack(f: Flow, events: seq<Event>)
    requires forall i :: 0 <= i < |events| ==> events[i].action != NewLesson
    ensures Run(f, events).currentStep.Number() >= f.currentStep.Number()
    decreases |events|
  {
    if events != [] {
      var g := Dispatch(f, events[0].action, events[0].replies);
      NoBackTransition(f, events[0].action, events[0].replies);
      RunNeverGoesBack(g, events[1..]);
    }
  }

  /** Confirming and submitting a clarification both lead straight to step 3
      when the server answers: there is no stay-in-step-2 loop. */
  lemma Step2AlwaysAdvances(f: Flow, a: Action, c: Corrections, step1: Outcome<string>, saved: bool)
    requires a == Confirm || a == SubmitClarification
    requires Enabled(f, a)
    ensures Dispatch(f, a, Replies(step1, Answered(c), saved)).currentStep == Three
    ensures Dispatch(f, a, Replies(step1, Answered(c), saved)).lessonData.step2UserConfirmation
            == (a == Confirm)
    ensures Dispatch(f, a, Replies(step1, Answered(c), saved)).lessonData.step2UserClarification
            == (if a == Confirm then "" else f.userClarification)
  {
  }

  /** Ratings are not write-once: on the result screen, two successful star
      clicks leave the second rating. */
  lemma RatingCanBeReplaced(f: Flow, first: int, second: int, r1: Replies, r2: Replies)
    requires Inv(f) && f.currentStep == Three
    requires first in RatingChoices && second in RatingChoices
    requires r1.saved && r2.saved
    ensures Dispatch(Dispatch(f, RateLesson(first), r1), RateLesson(second), r2).lessonData.rating
            == Some(second)
  {
  }

  /** Which controls the screen offers: every control that starts a request
      is disabled while one is in flight, each step shows only its own
      controls, and "Continue" and "Submit Clarification" also need
      non-blank text. */
  lemma ControlsOnScreen(f: Flow, a: Action)
    ensures (Enabled(f, a) && !a.EditContext? && !a.EditInput? && !a.EditClarification?
             && a != NewLesson) ==> !f.isLoading
    ensures Enabled(f, a) && (a.EditContext? || a.EditInput? || a == Continue) ==>
              f.currentStep == One
    ensures Enabled(f, a) && (a == Confirm || a == OpenClarify || a.EditClarification?
                              || a == SubmitClarification || a == Cancel) ==>
              f.currentStep == Two
    ensures Enabled(f, a) && (a == Confirm || a == OpenClarify) ==> !f.showClarificationInput
    ensures Enabled(f, a) && (a.EditClarification? || a == SubmitClarification || a == Cancel) ==>
              f.showClarificationInput
    ensures Enabled(f, a) && a.RateLesson? ==> f.currentStep == Three && 1 <= a.stars <= 5
    ensures Enabled(f, Continue) <==>
              f.currentStep == One && !f.isLoading
              && Trim(f.lessonData.step1Context) != [] && Trim(f.lessonData.step1Input) != []
    ensures Enabled(f, SubmitClarification) <==>
              f.currentStep == Two && f.showClarificationInput && !f.isLoading
              && Trim(f.userClarification) != []
    ensures Enabled(f, NewLesson)
    ensures Enabled(f, Confirm) <==> f.currentStep == Two && !f.showClarificationInput && !f.isLoading
    ensures Enabled(f, OpenClarify) <==>
              f.currentStep == Two && !f.showClarificationInput && !f.isLoading
    ensures Enabled(f, Cancel) <==> f.currentStep == Two && f.showClarificationInput && !f.isLoading
    ensures a.RateLesson? ==>
              (Enabled(f, a) <==> f.currentStep == Three && 1 <= a.stars <= 5 && !f.isLoading)
    ensures a.EditContext? || a.EditInput? ==> (Enabled(f, a) <==> f.currentStep == One)
    ensures a.EditClarification? ==>
              (Enabled(f, a) <==> f.currentStep == Two && f.showClarificationInput)
  {
  }
}

=== FILE: lesson_store.dfy ===
/**
 One user's stored lessons, oldest first, and what the lesson routes do to
 them. The save route inserts the client's whole lesson when a star is
 clicked; the step-2 route updates "the user's newest lesson" before that
 insert has happened, so as written it rewrites the previous lesson.
 */
module LessonStore {
  import opened Lesson
  import opened Api
  import opened Js
  import Step2Route

  /** A lesson still being worked on; every lesson the save route inserts
      carries the rating that triggered the save. */
  predicate InProgress(l: LessonData) {
    l.rating.None?
  }

  /** The save route: the client's lesson becomes a new, newest row. */
  function Insert(rows: seq<LessonData>, lesson: LessonData): (s: seq<LessonData>)
    ensures |s| == |rows| + 1 && s[..|rows|] == rows && s[|rows|] == lesson
  {
    rows + [lesson]
  }

  /** `.update(m).eq("user_id", userId).order("created_at", desc).limit(1)` as
      written: the newest row is updated whatever it holds, and with no row
      nothing is. */
  function UpdateNewest(rows: seq<LessonData>, m: map<Column, Value>): (s: seq<LessonData>)
    ensures |s| == |rows|
    ensures rows != [] ==> s[..|s| - 1] == rows[..|rows| - 1] && s[|s| - 1] == Apply(rows[|rows| - 1], m)
  {
    if rows == [] then rows else rows[..|rows| - 1] + [Apply(rows[|rows| - 1], m)]
  }

  /** The evidently intended update: only a lesson still in progress is
      written; a finished lesson is never touched. */
  function UpdateInProgress(rows: seq<LessonData>, m: map<Column, Value>): (s: seq<LessonData>)
    ensures |s| == |rows|
    ensures forall i :: 0 <= i < |rows| && !InProgress(rows[i]) ==> s[i] == rows[i]
    ensures rows != [] && InProgress(rows[|rows| - 1]) ==> s == UpdateNewest(rows, m)
  {
    if rows != [] && InProgress(rows[|rows| - 1]) then UpdateNewest(rows, m) else rows
  }

  /** The rows after a handler's calls, each update going through the code as
      written (`intended == false`) or through the corrected update. */
  function Replay(rows: seq<LessonData>, effects: seq<Effect>, intended: bool): (s: seq<LessonData>)
    ensures |s| == |rows|
    decreases |effects|
  {
    if effects == [] then rows
    else
      var next :=
        if !effects[0].UpdateLatestLesson? then rows
        else if intended then UpdateInProgress(rows, effects[0].fields)
        else UpdateNewest(rows, effects[0].fields);
      Replay(next, effects[1..], intended)
  }

  /** As written: a learner with one finished lesson who completes step 2 of a
      new lesson gets the new corrections written over the finished one. */
  lemma StepTwoRewritesFinishedLesson(prev: LessonData, request: Step2Route.Request, answer: Corrections)
    requires Step2Route.HasRequiredFields(request)
    requires prev.rating.Some? && prev.Step3() != answer
    ensures
      var h := Step2Route.Post(Some(request), true, Step2Route.Parsed(answer), true);
      var s := Replay([prev], h.effects, false);
      && h.reply.Ok?
      && |s| == 1 && s[0] != prev && s[0].Step3() == answer
  {
    var h := Step2Route.Post(Some(request), true, Step2Route.Parsed(answer), true);
    var e := h.effects;
    assert |e| == 3 && e[1].GenerateCorrections?;
    var m0 := e[0].fields;
    var m2 := e[2].fields;
    assert m2 == Step3Fields(answer);
    ReplayThree([prev], e);
    Step3FieldsRoundTrip(UpdateNewest([prev], m0)[0], answer);
  }

  /** Two updates around a generation call, as written. */
  lemma ReplayThree(rows: seq<LessonData>, e: seq<Effect>)
    requires |e| == 3 && e[0].UpdateLatestLesson? && !e[1].UpdateLatestLesson? && e[2].UpdateLatestLesson?
    ensures Replay(rows, e, false) == UpdateNewest(UpdateNewest(rows, e[0].fields), e[2].fields)
  {
    var s1 := UpdateNewest(rows, e[0].fields);
    assert Replay(rows, e, false) == Replay(s1, e[1..], false);
    assert Replay(s1, e[1..], false) == Replay(s1, e[2..], false);
    assert Replay(s1, e[2..], false) == UpdateNewest(s1, e[2].fields) by {
      assert e[2..][1..] == [];
    }
  }

  /** Corrected: whatever the calls, a finished lesson keeps every field. */
  lemma {:induction false} FinishedLessonsKept(rows: seq<LessonData>, effects: seq<Effect>)
    ensures var s := Replay(rows, effects, true);
      forall i :: 0 <= i < |rows| && !InProgress(rows[i]) ==> s[i] == rows[i]
    decreases |effects|
  {
    if effects != [] {
      var next :=
        if !effects[0].UpdateLatestLesson? then rows
        else UpdateInProgress(rows, effects[0].fields);
      assert forall i :: 0 <= i < |rows| && !InProgress(rows[i]) ==> next[i] == rows[i];
      FinishedLessonsKept(next, effects[1..]);
    }
  }

  /** Corrected: when the newest lesson is still in progress it receives
      every update of the handler in order, so what the lemmas about
      `ApplyAll` say of a row holds of it. */
  lemma {:induction false} InProgressLessonUpdated(rows: seq<LessonData>, effects: seq<Effect>)
    requires rows != [] && InProgress(rows[|rows| - 1])
    ensures Replay(rows, effects, true)[|rows| - 1] == ApplyAll(rows[|rows| - 1], effects)
    decreases |effects|
  {
    if effects != [] {
      var n := |rows| - 1;
      var next :=
        if !effects[0].UpdateLatestLesson? then rows
        else UpdateInProgress(rows, effects[0].fields);
      assert next[n] == (if effects[0].UpdateLatestLesson? then Apply(rows[n], effects[0].fields) else rows[n]);
      InProgressLessonUpdated(next, effects[1..]);
    }
  }

  /** Corrected: the step-2 route never changes a finished lesson, so the
      rows the save route inserted keep what the learner rated. */
  lemma StepTwoKeepsFinishedLessons(rows: seq<LessonData>, request: Option<Step2Route.Request>,
                                    step2Saved: bool, decoded: Step2Route.Decoded, step3Saved: bool)
    ensures
      var h := Step2Route.Post(request, step2Saved, decoded, step3Saved);
      var s := Replay(rows, h.effects, true);
      forall i :: 0 <= i < |rows| && !InProgress(rows[i]) ==> s[i] == rows[i]
  {
    FinishedLessonsKept(rows, Step2Route.Post(request, step2Saved, decoded, step3Saved).effects);
  }
}

=== FILE: step1_route.dfy ===
/**
 POST /api/lesson/step1: validates the request, checks that the generation
 API key is configured, asks the AI to summarize the learner's intent and
 returns the trimmed summary as `clarification`.
 */
module Step1Route {
  import opened Js
  import opened Api

  /** The JSON request body; a field is `None` when it is missing. */
  datatype Request = Request(context: Option<string>, input: Option<string>, userId: Option<string>)

  /** `context`, `input` and `userId` are all present and non-empty. White
      space alone is accepted here. */
  predicate HasRequiredFields(r: Request) {
    Truthy(r.context) && Truthy(r.input) && Truthy(r.userId)
  }

  /** The handler. `request` is `None` when the body is not valid JSON;
      `hasApiKey` says whether the key is set in the environment; `generation`
      is what the summarization call would produce. */
  function Post(request: Option<Request>, hasApiKey: bool, generation: Generation): (h: Handled<string>)
    ensures request.None? ==> h == Handled(Error(Unexpected), [])
    ensures request.Some? && !HasRequiredFields(request.value) ==>
              h == Handled(Error(MissingFields), [])
    ensures h.reply == Error(MissingFields) <==> request.Some? && !HasRequiredFields(request.value)
    ensures request.Some? && HasRequiredFields(request.value) && !hasApiKey ==>
              h == Handled(Error(MissingApiKey), [])
    ensures h.effects == [] || h.effects ==
              [SummarizeIntent(request.value.context.value, request.value.input.value, None)]
    ensures h.effects != [] <==> request.Some? && HasRequiredFields(request.value) && hasApiKey
    ensures h.reply.Ok? <==>
              && request.Some? && HasRequiredFields(request.value) && hasApiKey
              && generation.Text? && !AllSpace(generation.text)
    ensures h.reply.Ok? ==>
              h.reply.body != "" && Trimmed(h.reply.body) && h.reply.body == Trim(generation.text)
    ensures h.effects != [] && generation.Threw? ==> h.reply == Error(Unexpected)
    ensures h.effects != [] && generation.Text? && AllSpace(generation.text) ==>
              h.reply == Error(EmptyAiResponse)
  {
    match request
    case None => Handled(Error(Unexpected), [])
    case Some(r) =>
      if !HasRequiredFields(r) then Handled(Error(MissingFields), [])
      else if !hasApiKey then Handled(Error(MissingApiKey), [])
      else
        var calls := [SummarizeIntent(r.context.value, r.input.value, None)];
        match generation
        case Threw => Handled(Error(Unexpected), calls)
        case Text(text) =>
          if Trim(text) == [] then Handled(Error(EmptyAiResponse), calls)
          else Handled(Ok(Trim(text)), calls)
  }

  /** A request turned away by validation or by the key check gets the same
      answer whatever the AI would have said, because the AI is never asked. */
  lemma RejectionIgnoresGeneration(request: Option<Request>, hasApiKey: bool, g1: Generation, g2: Generation)
    requires request.None? || !HasRequiredFields(request.value) || !hasApiKey
    ensures Post(request, hasApiKey, g1) == Post(request, hasApiKey, g2)
    ensures CallsNoGenerator(Post(request, hasApiKey, g1).effects)
  {
  }
}

=== FILE: step2_route.dfy ===
/**
 POST /api/lesson/step2: validates the request, records the learner's step-2
 decision on their latest lesson row, asks the AI for corrections of the
 resolved intent, strips a code fence from the answer, parses it, records the
 six step-3 fields and returns the parsed answer.
 */
module Step2Route {
  import opened Js
  import opened Lesson
  import opened Api

  /** The JSON request body; absent string fields are `None`. */
  datatype Request = Request(
    context: Option<string>,
    input: Option<string>,
    confirmed: bool,
    clarification: Option<string>,
    userId: Option<string>,
    originalClarification: Option<string>)

  /** Only `context`, `input` and `userId` are required; `clarification` is
      not checked even when the learner did not confirm. */
  predicate HasRequiredFields(r: Request) {
    Truthy(r.context) && Truthy(r.input) && Truthy(r.userId)
  }

  const Step2Columns: set<Column> :=
    {Step2ClarificationCol, Step2UserConfirmationCol, Step2UserClarificationCol}

  /** The step-2 update: always the original AI summary and the decision; the
      learner's clarification only when they declined and gave a non-empty one. */
  function Step2Fields(r: Request): (m: map<Column, Value>)
    ensures m.Keys <= Step2Columns
    ensures Step2ClarificationCol in m && m[Step2ClarificationCol] == ValueOf(r.originalClarification)
    ensures Step2UserConfirmationCol in m && m[Step2UserConfirmationCol] == Bool(r.confirmed)
    ensures Step2UserClarificationCol in m <==> !r.confirmed && Truthy(r.clarification)
    ensures Step2UserClarificationCol in m ==>
              m[Step2UserClarificationCol] == Str(r.clarification.value)
  {
    var base := map[Step2ClarificationCol := ValueOf(r.originalClarification),
                    Step2UserConfirmationCol := Bool(r.confirmed)];
    if !r.confirmed && Truthy(r.clarification) then
      base[Step2UserClarificationCol := Str(r.clarification.value)]
    else
      base
  }

  /** The intent the corrections are generated for. */
  function FinalIntent(r: Request): (intent: Option<string>)
    ensures r.confirmed ==> intent == r.input
    ensures !r.confirmed ==> intent == r.clarification
  {
    if r.confirmed then r.input else r.clarification
  }

  const JsonFence := "```json"
  const Fence := "```"

  /** The text ends in a closing fence. */
  predicate EndsWithFence(s: string) {
    |s| >= 3 && s[|s| - 3..] == Fence
  }

  /** `.replace(/\s*```$/, "")`: a closing fence at the very end goes, together
      with the white space right before it; otherwise nothing changes. */
  function DropClosingFence(s: string): (r: string)
    ensures |r| <= |s| && r == s[..|r|]
    ensures EndsWithFence(s) ==>
              |r| <= |s| - 3 && AllSpace(s[|r|..|s| - 3]) && (r == [] || !IsSpace(r[|r| - 1]))
    ensures !EndsWithFence(s) ==> r == s
  {
    if EndsWithFence(s) then
      var r := TrimEnd(s[..|s| - 3]);
      assert s[|r|..|s| - 3] == s[..|s| - 3][|r|..];
      r
    else
      s
  }

  /** The text handed to `JSON.parse`: the trimmed AI answer, with an opening
      "```json" (checked first) or "```" fence and the white space after it
      removed, and a closing fence with the white space before it removed.
      The result is a piece of the trimmed text, no longer than it, with no
      white space at either end; unfenced text is passed on trimmed. */
  function StripFences(text: string): (r: string)
    ensures |r| <= |Trim(text)|
    ensures Trimmed(r)
    ensures !(Fence <= Trim(text)) ==> r == Trim(text)
  {
    var t := Trim(text);
    if JsonFence <= t then
      var body := TrimStart(t[|JsonFence|..]);
      var r := DropClosingFence(body);
      KeepsTrimmed(t, |JsonFence|, body, r);
      r
    else if Fence <= t then
      var body := TrimStart(t[|Fence|..]);
      var r := DropClosingFence(body);
      KeepsTrimmed(t, |Fence|, body, r);
      r
    else
      t
  }

  /** Cutting an opening fence and a closing fence out of a trimmed text leaves
      a trimmed text. */
  lemma KeepsTrimmed(t: string, k: nat, body: string, r: string)
    requires Trimmed(t) && k <= |t|
    requires body == TrimStart(t[k..]) && r == DropClosingFence(body)
    ensures Trimmed(r)
  {
    if body != [] {
      LastOfSuffix(t[k..], body);
      assert t[k..][|t| - k - 1] == t[|t| - 1];
    }
    DroppedTrimmed(body, r);
  }

  lemma DroppedTrimmed(body: string, r: string)
    requires r == DropClosingFence(body)
    requires body != [] ==> !IsSpace(body[0]) && !IsSpace(body[|body| - 1])
    ensures Trimmed(r)
  {
    if r != [] {
      assert r[0] == body[0];
      if !EndsWithFence(body) {
        assert r == body;
      }
    }
  }

  lemma LastOfSuffix(u: string, body: string)
    requires body == TrimStart(u) && body != []
    ensures body[|body| - 1] == u[|u| - 1]
  {
    assert body == u[|u| - |body|..];
  }

  /** A fenced answer is made of the opening fence ("```json" when it starts
      that way, else "```"), white space, the stripped result, and a tail that
      is empty or is white space followed by the closing fence. */
  lemma FencePieces(text: string) returns (open: string, lead: string, tail: string)
    requires Fence <= Trim(text)
    ensures open == (if JsonFence <= Trim(text) then JsonFence else Fence)
    ensures Trim(text) == open + lead + StripFences(text) + tail
    ensures AllSpace(lead)
    ensures tail == [] || (|tail| >= 3 && tail[|tail| - 3..] == Fence && AllSpace(tail[..|tail| - 3]))
    ensures tail == [] <==> !EndsWithFence(TrimStart(Trim(text)[|open|..]))
  {
    open := if JsonFence <= Trim(text) then JsonFence else Fence;
    OpenedBody(text, open);
    lead, tail := Pieces(Trim(text), open, StripFences(text));
  }

  /** `StripFences` on a fenced text, one branch at a time. */
  lemma OpenedBody(text: string, open: string)
    requires Fence <= Trim(text)
    requires open == (if JsonFence <= Trim(text) then JsonFence else Fence)
    ensures StripFences(text) == DropClosingFence(TrimStart(Trim(text)[|open|..]))
  {
    var t := Trim(text);
    if JsonFence <= t {
      assert open == JsonFence;
    } else {
      assert open == Fence;
    }
  }

  lemma Pieces(t: string, open: string, r: string) returns (lead: string, tail: string)
    requires open <= t && r == DropClosingFence(TrimStart(t[|open|..]))
    ensures t == open + lead + r + tail
    ensures AllSpace(lead)
    ensures tail == [] || (|tail| >= 3 && tail[|tail| - 3..] == Fence && AllSpace(tail[..|tail| - 3]))
    ensures tail == [] <==> !EndsWithFence(TrimStart(t[|open|..]))
  {
    var after := t[|open|..];
    var body := TrimStart(after);
    lead := LeadOf(after);
    tail := TailOf(body, r);
    SplitAt(t, |open|);
    Glue(t, open, after, lead, body, r, tail);
  }

  /** What `DropClosingFence` removed: nothing, or white space and the fence. */
  lemma TailOf(body: string, r: string) returns (tail: string)
    requires r == DropClosingFence(body)
    ensures body == r + tail
    ensures tail == [] || (|tail| >= 3 && tail[|tail| - 3..] == Fence && AllSpace(tail[..|tail| - 3]))
    ensures tail == [] <==> !EndsWithFence(body)
  {
    tail := body[|r|..];
    SplitAt(body, |r|);
    if tail != [] {
      ClosingTail(body, r, tail);
    }
  }

  lemma Glue(t: string, open: string, after: string, lead: string, body: string, r: string,
             tail: string)
    requires open <= t && t == t[..|open|] + after
    requires after == lead + body && body == r + tail
    ensures t == open + lead + r + tail
  {
    assert t[..|open|] == open;
    Regroup(open, lead, r);
    Regroup(open, lead + r, tail);
    Regroup(lead, r, tail);
  }

  lemma ClosingTail(body: string, r: string, tail: string)
    requires r == DropClosingFence(body) && tail == body[|r|..] && tail != []
    ensures |tail| >= 3 && tail[|tail| - 3..] == Fence && AllSpace(tail[..|tail| - 3])
  {
    var n := |body|;
    assert n >= 3 && body[n - 3..] == Fence && |r| <= n - 3;
    assert tail[..|tail| - 3] == body[|r|..n - 3];
    assert tail[|tail| - 3..] == body[n - 3..];
  }

  /** A payload wrapped in a "```json" fence, or a bare one, comes out exactly
      as it went in, provided it has no white space at either end. */
  lemma FenceRoundTrip(payload: string)
    requires Trimmed(payload)
    ensures StripFences(JsonFence + "\n" + payload + "\n" + Fence) == payload
    ensures StripFences(Fence + "\n" + payload + "\n" + Fence) == payload
  {
    WrappedRoundTrip(JsonFence, payload);
    WrappedRoundTrip(Fence, payload);
  }

  lemma WrappedRoundTrip(open: string, payload: string)
    requires open == JsonFence || open == Fence
    requires Trimmed(payload)
    ensures StripFences(open + "\n" + payload + "\n" + Fence) == payload
  {
    var rest := Regrouped(open, payload);
    StripWrapped(open, rest, payload);
  }

  lemma Regrouped(open: string, payload: string) returns (rest: string)
    ensures rest == "\n" + (payload + ("\n" + Fence))
    ensures open + "\n" + payload + "\n" + Fence == open + rest
  {
    var nl := "\n";
    rest := nl + (payload + (nl + Fence));
    Regroup(open + nl + payload, nl, Fence);
    Regroup(open + nl, payload, nl + Fence);
    Regroup(open, nl, payload + (nl + Fence));
  }

  lemma StripWrapped(open: string, rest: string, payload: string)
    requires open == JsonFence || open == Fence
    requires rest == "\n" + (payload + ("\n" + Fence)) && Trimmed(payload)
    ensures StripFences(open + rest) == payload
  {
    AfterOpening(open, rest, payload);
    if open == JsonFence {
      StripOpeningFence(open + rest, JsonFence);
    } else {
      BareFenceIsNotJson(rest);
      StripOpeningFence(open + rest, Fence);
    }
  }

  lemma AfterOpening(open: string, rest: string, payload: string)
    requires open == JsonFence || open == Fence
    requires rest == "\n" + (payload + ("\n" + Fence)) && Trimmed(payload)
    ensures Trimmed(open + rest)
    ensures DropClosingFence(TrimStart((open + rest)[|open|..])) == payload
  {
    FenceLetters();
    assert rest[|rest| - 1] == Fence[2];
    FencedShape(open, rest);
    StripPaddedBody("\n", payload, "\n");
  }

  /** The letters of the two fences that the proofs look at. */
  lemma FenceLetters()
    ensures |JsonFence| == 7 && |Fence| == 3
    ensures JsonFence[0] == '`' && JsonFence[3] == 'j' && Fence[0] == '`' && Fence[2] == '`'
    ensures !IsSpace('`')
  {
  }

  lemma BareFenceIsNotJson(rest: string)
    requires rest != [] && rest[0] == '\n'
    ensures !(JsonFence <= Fence + rest)
  {
    FenceLetters();
    assert (Fence + rest)[3] == rest[0];
  }

  /** A text that starts with a fence and ends with one is trimmed, and what
      follows the opening fence is the rest. */
  lemma FencedShape(open: string, rest: string)
    requires open == JsonFence || open == Fence
    requires rest != [] && rest[|rest| - 1] == '`'
    ensures Trimmed(open + rest) && (open + rest)[|open|..] == rest
  {
    FenceLetters();
    var w := open + rest;
    assert w[0] == open[0];
    assert w[|w| - 1] == rest[|rest| - 1];
  }

  /** What `StripFences` does to a text that is already trimmed and starts
      with the given fence. */
  lemma StripOpeningFence(t: string, open: string)
    requires Trimmed(t)
    requires (open == JsonFence && JsonFence <= t) || (open == Fence && Fence <= t && !(JsonFence <= t))
    ensures StripFences(t) == DropClosingFence(TrimStart(t[|open|..]))
  {
    TrimOfTrimmed(t);
  }

  /** The part after the opening fence: white space, the payload, white space
      and the closing fence come out as the payload. */
  lemma StripPaddedBody(lead: string, payload: string, mid: string)
    requires AllSpace(lead) && AllSpace(mid) && Trimmed(payload)
    ensures DropClosingFence(TrimStart(lead + (payload + (mid + Fence)))) == payload
  {
    StartIgnoresLead(lead, payload + (mid + Fence));
    if payload == [] {
      assert payload + (mid + Fence) == mid + Fence;
      EmptyPaddedBody(mid);
    } else {
      NoLeadingSpace(payload, mid + Fence);
      Regroup(payload, mid, Fence);
      ClosingFence(payload + mid);
      EndIgnoresTrail(payload, mid);
      assert TrimEnd(payload) == payload;
    }
  }

  lemma EmptyPaddedBody(mid: string)
    requires AllSpace(mid)
    ensures DropClosingFence(TrimStart(mid + Fence)) == []
  {
    StartIgnoresLead(mid, Fence);
    FenceStartsWithBacktick();
    NoLeadingSpace(Fence, []);
    assert Fence + [] == Fence && [] + Fence == Fence;
    ClosingFence([]);
  }

  lemma FenceStartsWithBacktick()
    ensures Fence != [] && !IsSpace(Fence[0]) && !IsSpace(Fence[|Fence| - 1])
  {
  }

  /** A closing fence at the end goes, with the white space before it. */
  lemma ClosingFence(x: string)
    ensures DropClosingFence(x + Fence) == TrimEnd(x)
  {
    var s := x + Fence;
    assert s[|s| - 3..] == Fence;
    assert s[..|s| - 3] == x;
  }

  /** Text that is not fenced is only trimmed. */
  lemma UnfencedIsOnlyTrimmed(lead: string, payload: string, trail: string)
    requires AllSpace(lead) && AllSpace(trail)
    requires Trimmed(payload) && !(Fence <= payload)
    ensures StripFences(lead + payload + trail) == payload
  {
    TrimIgnoresPadding(lead, payload, trail);
    TrimOfTrimmed(payload);
  }

  /** A "```json"-fenced answer whose payload parses is returned as the parsed
      answer and stored as the lesson's step-3 fields. */
  lemma FencedAnswerIsStored(r: Request, payload: string, parse: string -> Option<Corrections>)
    requires HasRequiredFields(r) && Trimmed(payload) && parse(payload).Some?
    ensures
      var d := Decode(Text(JsonFence + "\n" + payload + "\n" + Fence), parse);
      var h := Post(Some(r), true, d, true);
      && d == Parsed(parse(payload).value)
      && h.reply == Ok(parse(payload).value)
      && |h.effects| == 3
      && h.effects[2] == UpdateLatestLesson(r.userId.value, Step3Fields(parse(payload).value))
  {
    FenceRoundTrip(payload);
  }

  /** The handler. `request` is `None` when the body is not JSON;
      `step2Saved` and `step3Saved` say whether the two row updates succeed;
      `decoded` is what the corrections call and `JSON.parse` of its
      fence-stripped text produced (see `Decode`). */
  function Post(request: Option<Request>, step2Saved: bool, decoded: Decoded, step3Saved: bool)
    : (h: Handled<Corrections>)
    ensures request.None? ==> h == Handled(Error(Unexpected), [])
    ensures request.Some? && !HasRequiredFields(request.value) ==>
              h == Handled(Error(MissingFields), [])
    ensures request.Some? && HasRequiredFields(request.value) ==>
              && |h.effects| >= 1
              && h.effects[0] == UpdateLatestLesson(request.value.userId.value, Step2Fields(request.value))
    ensures request.Some? && HasRequiredFields(request.value) && !step2Saved ==>
              h.reply == Error(LessonUpdateFailed) && CallsNoGenerator(h.effects)
    ensures |h.effects| >= 2 <==> request.Some? && HasRequiredFields(request.value) && step2Saved
    ensures |h.effects| >= 2 ==>
              h.effects[1] == GenerateCorrections(request.value.context.value, FinalIntent(request.value))
    ensures |h.effects| >= 2 && decoded.GenerationThrew? ==> h.reply == Error(Unexpected) && |h.effects| == 2
    ensures |h.effects| >= 2 && decoded.Unparsable? ==> h.reply == Error(ParseFailed) && |h.effects| == 2
    ensures |h.effects| <= 3
    ensures |h.effects| == 3 <==> |h.effects| >= 2 && decoded.Parsed?
    ensures |h.effects| == 3 ==>
              h.effects[2] == UpdateLatestLesson(request.value.userId.value, Step3Fields(decoded.answer))
    ensures |h.effects| == 3 && !step3Saved ==> h.reply == Error(SaveCorrectionsFailed)
    ensures h.reply.Ok? <==> |h.effects| == 3 && step3Saved
    ensures h.reply.Ok? ==> h.reply.body == decoded.answer
  {
    match request
    case None => Handled(Error(Unexpected), [])
    case Some(r) =>
      if !HasRequiredFields(r) then Handled(Error(MissingFields), [])
      else
        var userId := r.userId.value;
        var first := [UpdateLatestLesson(userId, Step2Fields(r))];
        if !step2Saved then Handled(Error(LessonUpdateFailed), first)
        else
          var rest := Correct(userId, r.context.value, FinalIntent(r), decoded, step3Saved);
          var all := first + rest.effects;
          assert all[0] == first[0] && all[1] == rest.effects[0];
          assert |rest.effects| == 2 ==> all[2] == rest.effects[1];
          Handled(rest.reply, all)
  }

  /** What became of the corrections call: it threw, its fence-stripped text
      did not parse, or it parsed to an answer. */
  datatype Decoded = GenerationThrew | Unparsable | Parsed(answer: Corrections)

  function Decode(generation: Generation, parse: string -> Option<Corrections>): (d: Decoded)
    ensures d.GenerationThrew? <==> generation.Threw?
    ensures d.Parsed? <==> generation.Text? && parse(StripFences(generation.text)).Some?
    ensures d.Parsed? ==> d.answer == parse(StripFences(generation.text)).value
  {
    match generation
    case Threw => GenerationThrew
    case Text(text) =>
      match parse(StripFences(text))
      case None => Unparsable
      case Some(answer) => Parsed(answer)
  }

  /** What follows a successful step-2 update: the corrections call, then, if
      its answer parsed, the step-3 update. */
  function Correct(userId: string, context: string, intent: Option<string>, decoded: Decoded,
                   step3Saved: bool): (h: Handled<Corrections>)
    ensures 1 <= |h.effects| <= 2
    ensures h.effects[0] == GenerateCorrections(context, intent)
    ensures decoded.GenerationThrew? ==> h.reply == Error(Unexpected) && |h.effects| == 1
    ensures decoded.Unparsable? ==> h.reply == Error(ParseFailed) && |h.effects| == 1
    ensures |h.effects| == 2 <==> decoded.Parsed?
    ensures |h.effects| == 2 ==> h.effects[1] == UpdateLatestLesson(userId, Step3Fields(decoded.answer))
    ensures |h.effects| == 2 && !step3Saved ==> h.reply == Error(SaveCorrectionsFailed)
    ensures h.reply.Ok? <==> decoded.Parsed? && step3Saved
    ensures h.reply.Ok? ==> h.reply.body == decoded.answer
  {
    var asked := [GenerateCorrections(context, intent)];
    match decoded
    case GenerationThrew => Handled(Error(Unexpected), asked)
    case Unparsable => Handled(Error(ParseFailed), asked)
    case Parsed(answer) =>
      var all := asked + [UpdateLatestLesson(userId, Step3Fields(answer))];
      if !step3Saved then Handled(Error(SaveCorrectionsFailed), all)
      else Handled(Ok(answer), all)
  }
}

=== FILE: wiring.dfy ===
/**
 How the client and the step routes fit together: the request bodies the
 client builds from its state, how it reads a route's reply, and what that
 implies end to end.
 */
module Wiring {
  import opened Js
  import opened Lesson
  import opened Api
  import opened LessonFlow
  import Step1Route
  import Step2Route

  /** The body `handleStep1Submit` posts: the two step-1 texts and the user,
      so the route's field check passes exactly when none of them is empty. */
  function Step1RequestOf(f: Flow, userId: string): (r: Step1Route.Request)
    ensures Step1Route.HasRequiredFields(r) <==>
              f.lessonData.step1Context != "" && f.lessonData.step1Input != "" && userId != ""
  {
    Step1Route.Request(Some(f.lessonData.step1Context), Some(f.lessonData.step1Input), Some(userId))
  }

  /** The body `handleStep2Submit(confirmed, clarification)` posts. The route
      reads from it the intent the learner chose, the summary the client showed
      and the clarification only when one was typed and not confirmed. */
  function Step2RequestOf(f: Flow, userId: string, confirmed: bool, clarification: Option<string>)
    : (r: Step2Route.Request)
    ensures Step2Route.HasRequiredFields(r) <==>
              f.lessonData.step1Context != "" && f.lessonData.step1Input != "" && userId != ""
    ensures Step2Route.FinalIntent(r) ==
              Some(if confirmed then f.lessonData.step1Input else OrEmpty(clarification))
    ensures Step2Route.Step2Fields(r)[Step2ClarificationCol] == Str(f.lessonData.step2Clarification)
    ensures Step2Route.Step2Fields(r)[Step2UserConfirmationCol] == Bool(confirmed)
    ensures Step2UserClarificationCol in Step2Route.Step2Fields(r) <==>
              !confirmed && OrEmpty(clarification) != ""
  {
    Step2Route.Request(Some(f.lessonData.step1Context), Some(f.lessonData.step1Input), confirmed,
                       Some(OrEmpty(clarification)), Some(userId), Some(f.lessonData.step2Clarification))
  }

  /** The client only distinguishes an ok response from any error. */
  function Seen<T>(r: Reply<T>): (o: Outcome<T>)
    ensures o.Answered? <==> r.Status() == 200
    ensures o.Answered? ==> o.value == r.body
  {
    match r
    case Ok(body) => Answered(body)
    case Error(_) => Failed
  }

  /** A step-1 request the client is able to send is never turned away for a
      missing field: the client's non-blank check is stricter than the route's
      non-empty check. */
  lemma ContinuePassesValidation(f: Flow, userId: string, hasApiKey: bool, generation: Generation)
    requires Enabled(f, Continue) && userId != ""
    ensures Step1Route.HasRequiredFields(Step1RequestOf(f, userId))
    ensures Step1Route.Post(Some(Step1RequestOf(f, userId)), hasApiKey, generation).reply
            != Error(MissingFields)
  {
    NonBlankIsNonEmpty(f.lessonData.step1Context);
    NonBlankIsNonEmpty(f.lessonData.step1Input);
  }

  /** An enabled "Continue" whose summary comes back non-blank lands on step 2
      showing the trimmed summary; the route is asked to summarize exactly the
      two texts on screen. */
  lemma ContinueReachesStepTwo(f: Flow, userId: string, text: string,
                               step2: Outcome<Corrections>, saved: bool)
    requires Inv(f) && Enabled(f, Continue) && userId != "" && !AllSpace(text)
    ensures
      var h := Step1Route.Post(Some(Step1RequestOf(f, userId)), true, Text(text));
      var g := Dispatch(f, Continue, Replies(Seen(h.reply), step2, saved));
      && h.effects == [SummarizeIntent(f.lessonData.step1Context, f.lessonData.step1Input, None)]
      && g.currentStep == Two
      && g.lessonData.step2Clarification == Trim(text)
      && g.lessonData == f.lessonData.(step2Clarification := Trim(text))
  {
    NonBlankIsNonEmpty(f.lessonData.step1Context);
    NonBlankIsNonEmpty(f.lessonData.step1Input);
  }

  /** The corrections are generated for the learner's original input when they
      confirm, and for the text in the clarification box when they submit a
      clarification. */
  lemma ResolvedIntent(f: Flow, a: Action, userId: string, decoded: Step2Route.Decoded,
                       step3Saved: bool)
    requires Inv(f) && Enabled(f, a) && userId != ""
    requires a == Confirm || a == SubmitClarification
    ensures
      var request := if a == Confirm then Step2RequestOf(f, userId, true, None)
                     else Step2RequestOf(f, userId, false, Some(f.userClarification));
      var h := Step2Route.Post(Some(request), true, decoded, step3Saved);
      && |h.effects| >= 2
      && h.effects[1] == GenerateCorrections(
           f.lessonData.step1Context,
           Some(if a == Confirm then f.lessonData.step1Input else f.userClarification))
  {
    NonBlankIsNonEmpty(f.lessonData.step1Context);
    NonBlankIsNonEmpty(f.lessonData.step1Input);
    if a == Confirm {
      IntentSent(f, userId, true, None, decoded, step3Saved);
    } else {
      IntentSent(f, userId, false, Some(f.userClarification), decoded, step3Saved);
    }
  }

  /** What the learner types is what is sent. An edit of a step-1 box becomes
      that field of the step-1 request and leaves the other one alone. Text
      typed into the open clarification box enables "Submit Clarification",
      is the intent the step-2 route generates corrections for and is the
      clarification the client records. */
  lemma TypedTextIsSent(f: Flow, t: string, r: Replies, userId: string, c: Corrections,
                        step1: Outcome<string>, saved: bool)
    requires Inv(f)
    ensures f.currentStep == One ==>
      && Step1RequestOf(Dispatch(f, EditContext(t), r), userId)
         == Step1Route.Request(Some(t), Some(f.lessonData.step1Input), Some(userId))
      && Step1RequestOf(Dispatch(f, EditInput(t), r), userId)
         == Step1Route.Request(Some(f.lessonData.step1Context), Some(t), Some(userId))
    ensures f.currentStep == Two && f.showClarificationInput && !Blank(t) ==>
      var typed := Dispatch(f, EditClarification(t), r);
      && Enabled(typed, SubmitClarification)
      && Step2Route.FinalIntent(Step2RequestOf(typed, userId, false, Some(typed.userClarification)))
         == Some(t)
      && Dispatch(typed, SubmitClarification, Replies(step1, Answered(c), saved))
           .lessonData.step2UserClarification == t
  {
  }

  lemma IntentSent(f: Flow, userId: string, confirmed: bool, clarification: Option<string>,
                   decoded: Step2Route.Decoded, step3Saved: bool)
    requires f.lessonData.step1Context != "" && f.lessonData.step1Input != "" && userId != ""
    ensures
      var h := Step2Route.Post(Some(Step2RequestOf(f, userId, confirmed, clarification)),
                               true, decoded, step3Saved);
      && |h.effects| >= 2
      && h.effects[1] == GenerateCorrections(
           f.lessonData.step1Context,
           Some(if confirmed then f.lessonData.step1Input else OrEmpty(clarification)))
  {
    assert Step2Route.HasRequiredFields(Step2RequestOf(f, userId, confirmed, clarification));
  }

  /** After a successful step-2 round trip, the step-3 fields on screen are the
      ones the route wrote to the lesson row, and the row records the same
      decision as the client. */
  lemma ClientMatchesStoredLesson(f: Flow, a: Action, userId: string, decoded: Step2Route.Decoded,
                                  row: LessonData,
                                  step1: Outcome<string>, saved: bool)
    requires Inv(f) && Enabled(f, a) && userId != ""
    requires a == Confirm || a == SubmitClarification
    requires decoded.Parsed?
    ensures
      var request := if a == Confirm then Step2RequestOf(f, userId, true, None)
                     else Step2RequestOf(f, userId, false, Some(f.userClarification));
      var h := Step2Route.Post(Some(request), true, decoded, true);
      var g := Dispatch(f, a, Replies(step1, Seen(h.reply), saved));
      var stored := ApplyAll(row, h.effects);
      && g.currentStep == Three
      && g.lessonData.Step3() == stored.Step3()
      && g.lessonData.step2Clarification == stored.step2Clarification
      && g.lessonData.step2UserConfirmation == stored.step2UserConfirmation
  {
    assert f.lessonData.step1Context != "" && f.lessonData.step1Input != "";
    var confirmed := a == Confirm;
    var clarification := if a == Confirm then None else Some(f.userClarification);
    var request := Step2RequestOf(f, userId, confirmed, clarification);
    var h := Step2Route.Post(Some(request), true, decoded, true);
    StoredLessonAgrees(f, userId, confirmed, clarification, decoded, row);
    var g := Dispatch(f, a, Replies(step1, Seen(h.reply), saved));
    assert g == Step2Submit(f, confirmed, clarification, Answered(h.reply.body));
  }

  lemma StoredLessonAgrees(f: Flow, userId: string, confirmed: bool, clarification: Option<string>,
                           decoded: Step2Route.Decoded, row: LessonData)
    requires f.lessonData.step1Context != "" && f.lessonData.step1Input != "" && userId != ""
    requires decoded.Parsed?
    ensures
      var h := Step2Route.Post(Some(Step2RequestOf(f, userId, confirmed, clarification)),
                               true, decoded, true);
      var stored := ApplyAll(row, h.effects);
      && h.reply.Ok?
      && stored.Step3() == h.reply.body
      && stored.step2Clarification == f.lessonData.step2Clarification
      && stored.step2UserConfirmation == confirmed
  {
    var request := Step2RequestOf(f, userId, confirmed, clarification);
    assert Step2Route.HasRequiredFields(request);
    var h := Step2Route.Post(Some(request), true, decoded, true);
    var answer := decoded.answer;
    var e := h.effects;
    assert |e| == 3;
    assert e[0].fields == Step2Route.Step2Fields(request);
    assert e[2].fields == Step3Fields(answer);
    ApplyThree(row, e);
    Step3FieldsRoundTrip(Apply(row, e[0].fields), answer);
  }

  /** Two updates around a generation call: only the updates touch the row. */
  lemma ApplyThree(row: LessonData, e: seq<Effect>)
    requires |e| == 3 && e[0].UpdateLatestLesson? && !e[1].UpdateLatestLesson? && e[2].UpdateLatestLesson?
    ensures ApplyAll(row, e) == Apply(Apply(row, e[0].fields), e[2].fields)
  {
    var after2 := Apply(row, e[0].fields);
    assert ApplyAll(row, e) == ApplyAll(after2, e[1..]);
    assert ApplyAll(after2, e[1..]) == ApplyAll(after2, e[2..]);
    assert ApplyAll(after2, e[2..]) == Apply(after2, e[2].fields) by {
      assert e[2..][1..] == [];
    }
  }

  /** A failed step-2 request, whatever the route's reason, leaves the lesson
      and the step as they were. */
  lemma FailedStep2ChangesNothing(f: Flow, a: Action, userId: string, step2Saved: bool,
                                  decoded: Step2Route.Decoded, step3Saved: bool, step1: Outcome<string>, saved: bool)
    requires Inv(f) && Enabled(f, a) && userId != ""
    requires a == Confirm || a == SubmitClarification
    ensures
      var request := if a == Confirm then Step2RequestOf(f, userId, true, None)
                     else Step2RequestOf(f, userId, false, Some(f.userClarification));
      var h := Step2Route.Post(Some(request), step2Saved, decoded, step3Saved);
      var g := Dispatch(f, a, Replies(step1, Seen(h.reply), saved));
      h.reply.Error? ==> g == f
  {
  }
}
